=== FILE: README.md ===
# configgery device client: a Dafny model of its reconciliation logic

This project models the `Client` class of the configgery Python device client
(`src/configgery/client.py`). The client keeps a directory of configuration
files in step with the device group metadata the configgery server declares.
It fetches the metadata (`check_latest`). It finds the files whose MD5 differs
from the recorded one (`outdated_configurations`, `is_download_needed`). It
deletes files the metadata no longer declares (`_remove_old_configurations`).
It downloads the outdated files one by one and stops at the first failure
(`download_configurations`). It reports device events (`update_state`) and
serves file contents (`get_configuration`).

The model is a functional state machine over an abstract world:

- `ConfiggeryClient.Client` is the client's state, the snapshot in memory, the
  `configurations` directory and the bytes of `configurations.json`.
- `FileSystem.Directory` is the directory: a map from relative path to bytes,
  plus the set of subdirectories.
- `ConfiggeryClient.Env` holds everything the client calls but the model does
  not define. The device API is a function from `Transport.Request` to
  `Transport.Response`. `file_md5` is an uninterpreted `Types.Hasher` from the
  file's contents (`None` for a missing file) to a digest. JSON parsing,
  `save_metadata_file` and `load_metadata_file` are opaque functions.
- Every operation returns a `Step`: its return value, the client afterwards,
  and the requests it sent, in order. So "no request was issued" and "later
  entries were never requested" are statements about that list.

Modules follow the code's structure:

- `PathOrder`: Python's `str` ordering.
- `Metadata`: the snapshot and its stable sort by path.
- `FileSystem`: the directory and `remove_subdirs_if_empty`.
- `Staleness`: `outdated_configurations` and `is_download_needed`.
- `Prune`: `_remove_old_configurations`.
- `Download`: the download loop.
- `Transport`: the HTTP exchanges.
- `Utf8`: the bytes `bytes.decode("utf-8")` accepts.
- `ConfiggeryClient`: the client operations.
- `ClientProperties`: properties that span several operations.
- `ClientAsWritten`: the operations whose error logging can raise, as written.

Behaviour of the code worth noting:

- The client starts in `Outdated` even when cached metadata loads.
- `download_configurations` does not save the metadata again.
- A target file is opened with `'wb'` before its request is sent, so a failed
  download leaves that file empty.
- `get_configuration` and `update_state` return `False` when no snapshot is
  held.
- `outdated_configurations` is a generator. The download loop therefore tests
  each entry for staleness against the directory as the earlier iterations
  left it (`Download.DownloadLazy`). `Download.LazyIsEager` proves this equals
  a loop over a list computed up front whenever paths are unique.
- The configurations of a snapshot are a Python set. The model keeps them as
  a sequence in the set's iteration order, without duplicates. That makes the
  stable `sorted` and the first-match loops of `get_configuration`
  deterministic.
- Every non-200 branch logs the response body through an f-string that calls
  `r.data.decode("utf-8")`. An error body that is not valid UTF-8 therefore
  raises `UnicodeDecodeError` before the branch's failure result is recorded.
  `ClientAsWritten` models this; the rest of the model follows the evidently
  intended failure results (see Findings).
- Declared paths and looked-up names are compared as literal strings. The
  client-level properties assume normalised declared paths
  (`FileSystem.Normalised`); see Left out.

## Model

| member | source | states |
|---|---|---|
| PathOrder.LeTotal | src/configgery/client.py:86 | any two paths compare one way or the other under Python's string order, so the sort key is total |
| PathOrder.LeTransitive | src/configgery/client.py:86 | Python's string order on paths is transitive |
| PathOrder.LeAntisymmetric | src/configgery/client.py:86 | two paths that compare both ways are equal |
| Metadata.SortByPath | src/configgery/client.py:86 | `sorted(..., key=path)` returns a permutation of the configurations in ascending path order |
| Metadata.UniquePathsShrink | src/configgery/client.py:86-88 | filtering or reordering a snapshot with unique paths keeps paths unique and entries distinct |
| Staleness.Outdated | src/configgery/client.py:80-88 | an entry is returned iff it is declared and its recorded md5 differs from the digest of the file at its path; the result is in ascending path order and has no duplicates when the snapshot has none |
| Staleness.IsDownloadNeeded | src/configgery/client.py:90-98 | the first-hit scan is true iff the outdated list is non-empty, that is, iff some declared entry is stale |
| Staleness.MissingFileIsOutdated | src/configgery/client.py:86-88 | a declared entry with no file on disk is outdated whenever the missing-file digest is not its recorded md5 |
| Staleness.KeepStaleAgree | src/configgery/client.py:87 | staleness depends only on the contents at the declared paths |
| Staleness.KeepStaleNone | src/configgery/client.py:86-88 | when no entry is stale, nothing is yielded |
| FileSystem.RemoveEmptySubdirs | src/configgery/client.py:78 | files are untouched; afterwards no empty subdirectory remains; only directories with no file below them are removed; a well-formed tree stays well-formed |
| Prune.Prune | src/configgery/client.py:62-78 | the file set becomes the old file set intersected with the declared paths, declared paths keep their contents, no empty subdirectory remains, and the tree stays well-formed |
| Prune.PruneIdempotent | src/configgery/client.py:56-78 | pruning twice with the same declared paths equals pruning once |
| Prune.DeleteUndeclaredByWalk | src/configgery/client.py:64-74 | walking the chain of both globs, with top-level entries visited twice, and unlinking each undeclared entry that is still a file gives exactly the declared-files restriction |
| Prune.PruneExample | tests/test_client.py:148-176 | with `foo.json` and `bar.json` declared, the test's tree ends with exactly those two files and no directories |
| FileSystem.JoinComponents | src/configgery/client.py:64-67 | splitting a path into its `/`-separated components and joining them back gives the path |
| FileSystem.NormalisedExample | src/configgery/client.py:64-67 | a file in a subdirectory, spelled as `str(rel_path)` prints it, is normalised |
| FileSystem.NotNormalisedExamples | src/configgery/client.py:64-67 | a `./` prefix, a doubled `/`, a `..` component, an absolute name and the empty name are not spellings the walk produces |
| Download.DownloadEach | src/configgery/client.py:145-160 | the i-th request is for the i-th entry; every request but the last succeeded; on success every entry was requested; on failure the last response was not 200 and no later entry was requested |
| Download.DownloadEachFrame | src/configgery/client.py:145-160 | the loop leaves every path it does not iterate over unchanged |
| Download.DownloadEachFiles | src/configgery/client.py:146-148 | the only new files are at iterated paths, and no directory disappears |
| Download.DownloadEachTruncates | src/configgery/client.py:148-160 | on failure the failing entry's file exists and is empty, because it was opened with `'wb'` before the request |
| Download.DownloadEachWritesBodies | src/configgery/client.py:148-154 | with unique paths, every entry whose request returned 200 holds that response's body |
| Download.DownloadLazy | src/configgery/client.py:145-160 | the loop as written sends only configuration requests; every request but the last succeeded; a failure ends on a non-200 response |
| Download.DownloadLazyFiles | src/configgery/client.py:146-148 | the loop as written creates files only at declared paths it iterates over |
| Download.LazyIsEager | src/configgery/client.py:86-88 | with unique paths, re-testing staleness during the loop gives the same run as the list of outdated entries computed before it |
| Download.DownloadLazyNothingStale | src/configgery/client.py:145-147 | when nothing is stale the loop sends no request and changes nothing |
| Utf8.HeadLength | src/configgery/client.py:115 | a character starts with an ASCII byte exactly when its encoding is one byte long; the length never exceeds four or the bytes left |
| Utf8.EncodeScalarIsOneCharacter | src/configgery/client.py:115 | the encoding of any Unicode scalar value is read back as one well-formed character of exactly its length |
| Utf8.EncodeDecodes | src/configgery/client.py:115 | every UTF-8 encoding of a string decodes without error |
| Utf8.AsciiDecodes | src/configgery/client.py:115 | ASCII bodies decode without error |
| Utf8.UndecodableExamples | src/configgery/client.py:115 | a lone continuation byte, the byte 0xFF, an overlong form and an encoded surrogate make decoding fail |
| ConfiggeryClient.New | src/configgery/client.py:39-54 | construction starts in `Outdated`; the snapshot is loaded from `configurations.json` only when that file exists |
| ConfiggeryClient.CheckLatest | src/configgery/client.py:100-118 | one request; on 200 the parsed snapshot is held and saved, the state is `MetadataDownloaded` and it returns true; otherwise, as intended, the state is `Invalid_FailedToLoadMetadata`, the snapshot is dropped and it returns false; the directory is untouched (the code as written raises instead on an undecodable error body: `ClientAsWritten.CheckLatest`) |
| ConfiggeryClient.RestartRecoversSnapshot | src/configgery/client.py:50-52 | a client constructed on the file `check_latest` saved holds the same snapshot when the file format round-trips |
| ConfiggeryClient.TimeSinceLastChecked | src/configgery/client.py:120-129 | the elapsed time is measured from the snapshot's last check, or from the epoch when there is no snapshot |
| ConfiggeryClient.RemoveOldConfigurations | src/configgery/client.py:56-78 | with no snapshot nothing changes; otherwise only declared files survive, unchanged, and no empty subdirectory remains; state and snapshot are untouched |
| ConfiggeryClient.OutdatedConfigurations | src/configgery/client.py:80-88 | with no snapshot the generator fails; otherwise it yields exactly the stale declared entries in path order |
| ConfiggeryClient.IsDownloadNeeded | src/configgery/client.py:90-98 | with no snapshot it fails; otherwise it is true iff `outdated_configurations` yields something |
| ConfiggeryClient.Refresh | src/configgery/client.py:139-140 | `check_latest` runs only when no snapshot is held |
| ConfiggeryClient.Reconcile | src/configgery/client.py:142-170 | with a snapshot in hand: only configuration requests are sent; true iff the state becomes `Valid`; otherwise, as intended, `Invalid_FailedToDownload` after a last request answered with a non-200; the snapshot and `configurations.json` are kept; afterwards every file is a declared path (the code as written raises instead on an undecodable error body: `ClientAsWritten.Reconcile`) |
| ConfiggeryClient.DownloadConfigurations | src/configgery/client.py:131-170 | if the refresh fails it returns false with the directory untouched and only the metadata request sent; with a snapshot held no metadata request is sent; true iff the state becomes `Valid`; otherwise, as intended, the state is a failure state; a snapshot already held is kept; afterwards every file is a path the snapshot declares and the state agrees with the snapshot (the code as written can raise instead: `ClientAsWritten.DownloadConfigurations`) |
| ConfiggeryClient.UpdateState | src/configgery/client.py:172-196 | with no snapshot it returns false and sends nothing; otherwise it sends the group id, group version and action name, and, as intended, returns true iff the status is 200; the client is unchanged (the code as written raises instead on an undecodable error body: `ClientAsWritten.UpdateState`) |
| ConfiggeryClient.ActionNameInjective | src/configgery/client.py:189 | different device states are sent as different action names |
| ConfiggeryClient.FirstWithPath | src/configgery/client.py:217-219 | the path loop returns the entry at the path that comes first in iteration order, or shows that none exists |
| ConfiggeryClient.FirstWithAlias | src/configgery/client.py:221-223 | the alias loop returns the entry with the alias that comes first in iteration order, or shows that none exists |
| ConfiggeryClient.ReadBytes | src/configgery/client.py:219 | `read_bytes` succeeds iff a regular file is at the path; otherwise it raises an error naming that path: `NotADirectoryError` exactly when a directory above the path is a regular file, else `IsADirectoryError` for a directory and `FileNotFoundError` for nothing there |
| ConfiggeryClient.ReadBytesErrorsExample | src/configgery/client.py:219 | reading `a/b` below the regular file `a` raises `NotADirectoryError`, reading the directory `a` raises `IsADirectoryError`, reading a missing `a` raises `FileNotFoundError` |
| ConfiggeryClient.Lookup | src/configgery/client.py:217-225 | the lookup as written serves only the file named by the argument, taken literally; a name no entry declares raises not-found, and every error names the argument |
| ConfiggeryClient.LookupServesDeclaredName | src/configgery/client.py:217-223 | the lookup as written serves a name declared as a path or an alias from the file of that name when it exists |
| ConfiggeryClient.GetConfiguration | src/configgery/client.py:198-225 | returns `(False, b'')` without a snapshot or when a download is needed; any bytes served are the file named by the argument, taken literally; a name no entry declares raises not-found |
| ConfiggeryClient.GetConfigurationServesDeclaredName | src/configgery/client.py:217-223 | once nothing is outdated, a name declared as some entry's path or alias is served from the file of that name when it exists |
| ConfiggeryClient.ServesDeclaredNameExample | src/configgery/client.py:209-219 | a snapshot declaring `a`, with `a` on disk under its recorded digest, makes `get_configuration("a")` return `(True, <contents of a>)` |
| ConfiggeryClient.LookupCorrected | src/configgery/client.py:217-225 | the corrected lookup serves the file of an entry matching by path or alias; an exact path match reads that path; otherwise an alias shared by several entries is served from the first of them in iteration order (`FirstWithAlias`); a name no entry declares raises not-found |
| ConfiggeryClient.GetConfigurationCorrected | src/configgery/client.py:217-225 | the same guards; the bytes served are the file of a matching entry; an exact path match reads that path whatever aliases exist |
| ClientProperties.DownloadWithSnapshot | src/configgery/client.py:139-142 | with a snapshot held, the download sends no metadata request and is just pruning plus the download loop |
| ClientProperties.LoopIsOverOutdated | src/configgery/client.py:142-160 | with unique (`UniquePaths`) and normalised (`NormalisedPaths`) declared paths, the download runs over the outdated list computed right after pruning |
| ClientProperties.DownloadIsFailFastInPathOrder | src/configgery/client.py:144-170 | with unique (`UniquePaths`) and normalised (`NormalisedPaths`) declared paths: outdated entries are requested in path order; the first non-200 stops the loop, leaves that entry's file empty, sets `Invalid_FailedToDownload` and returns false (as intended; see Findings); if all succeed, every response was 200 and each outdated path holds its body |
| ClientProperties.DownloadAfterRefresh | src/configgery/client.py:139-142 | without a snapshot, the download is `check_latest` followed by the download of the fetched snapshot |
| ClientProperties.DownloadedEntryIsFresh | src/configgery/client.py:144-170 | with unique (`UniquePaths`) and normalised (`NormalisedPaths`) declared paths, and server bodies that hash to their recorded digests (`ServesRecordedContent`): after a successful download each declared entry is fresh |
| ClientProperties.SuccessfulDownloadConverges | src/configgery/client.py:131-170 | with unique (`UniquePaths`) and normalised (`NormalisedPaths`) declared paths, and server bodies that hash to their recorded digests (`ServesRecordedContent`): after a successful download no download is needed |
| ClientProperties.PruneKeepsFreshness | src/configgery/client.py:62-67 | with normalised declared paths (`NormalisedPaths`), every declared entry that is fresh before pruning is fresh after it, even while other entries are stale |
| ClientProperties.NothingOutdatedAfterPrune | src/configgery/client.py:142-145 | with normalised declared paths (`NormalisedPaths`), when nothing was outdated nothing is outdated after pruning |
| ClientProperties.DownloadWhenNothingOutdatedIsNoOp | src/configgery/client.py:139-168 | with normalised declared paths (`NormalisedPaths`) and nothing outdated, the download prunes, sends no request, sets `Valid` and returns true |
| ClientProperties.SecondDownloadRequestsNothing | src/configgery/client.py:131-170 | with unique (`UniquePaths`) and normalised (`NormalisedPaths`) declared paths, and server bodies that hash to their recorded digests (`ServesRecordedContent`): downloading twice with no change on the server sends no request the second time and stays `Valid` |
| ClientProperties.AliasLookupNeverServed | src/configgery/client.py:221-223 | as written, after a successful download with normalised declared paths (`NormalisedPaths`), a normalised name (`Normalised`) that is only an alias, not a declared path, is never served |
| ClientProperties.CorrectedAliasLookupServed | src/configgery/client.py:221-223 | with unique (`UniquePaths`) and normalised (`NormalisedPaths`) declared paths, server bodies that hash to their recorded digests (`ServesRecordedContent`) and a missing-file digest no entry records (`SentinelIsUnrecorded`): with the corrected alias branch, after a successful download an alias of a declared entry is served |
| ClientProperties.PathMatchWinsOverAlias | src/configgery/client.py:217-223 | an exact path match is served, by the lookup as written and the corrected one, even when another entry has that path as its alias |
| ClientAsWritten.DownloadConfigurations | src/configgery/client.py:131-170 | as written, the download raises only right after a non-200 response whose body is not UTF-8; the rest of its behaviour is stated by `ClientAsWritten.DownloadWithSnapshot`, `ClientAsWritten.DownloadWithoutSnapshot` and `ClientAsWritten.DownloadAfterFetch` |
| ClientAsWritten.CheckLatest | src/configgery/client.py:107-118 | as written, a non-200 whose body is not UTF-8 raises after the one request with the client unchanged; otherwise the result is the corrected `check_latest` |
| ClientAsWritten.UpdateState | src/configgery/client.py:182-196 | as written, with a snapshot, a non-200 whose body is not UTF-8 raises after the one request with the client unchanged; otherwise the result is the corrected `update_state` |
| ClientAsWritten.Reconcile | src/configgery/client.py:142-160 | as written, the loop raises exactly when the corrected run fails on a response whose body is not UTF-8; it raises after the same requests and with the same directory, the failing file left empty, and the state not updated |
| ClientAsWritten.DownloadWithSnapshot | src/configgery/client.py:139-160 | with a snapshot held, the download as written agrees with the corrected one except that it raises exactly where the corrected one fails on an undecodable body, leaving the state as it was |
| ClientAsWritten.DownloadWithoutSnapshot | src/configgery/client.py:139-160 | without a snapshot, whatever the download as written returns is what the corrected one returns; when it raises, the corrected one failed on an undecodable body after the same requests and with the same directory |
| ClientAsWritten.DownloadAfterFetch | src/configgery/client.py:139-160 | after a successful fetch both versions reconcile the fetched snapshot, and they differ only by the raise |
| ClientAsWritten.CorrectedStopsAtFirst | src/configgery/client.py:145-160 | with unique and normalised declared paths, when the first outdated entry's request fails the corrected download sends that one request and returns false |
| ClientAsWritten.CheckLatestRaisesOnUndecodableBody | src/configgery/client.py:115 | a 500 with body `b'\xff'` makes `check_latest` as written raise, where the corrected one returns false |
| ClientAsWritten.UpdateStateRaisesOnUndecodableBody | src/configgery/client.py:194-195 | a 500 with body `b'\xff'` makes `update_state` as written raise, where the corrected one returns false |
| ClientAsWritten.DownloadRaisesOnUndecodableBody | src/configgery/client.py:156-157 | a 404 with body `b'\xff'` for the first outdated entry makes `download_configurations` as written raise after one request with the state unchanged, where the corrected one returns false in `Invalid_FailedToDownload` |
| ClientAsWritten.DownloadRaisesExample | src/configgery/client.py:144-160 | one declared file missing on disk and a server answering 404 with body `b'\xff'`: `download_configurations` as written raises after requesting that file, with the state still `Outdated` |

## Left out

- HTTP, TLS and `PoolManager`: every request is answered by the `server` function of `Env`. Network errors (`urllib3.exceptions.HTTPError`) are not modelled.
- JSON decoding, `DeviceGroupMetadata.from_server`, `load_metadata_file` and `save_metadata_file`: `configurations_metadata.py` is not part of this model. They are opaque functions in `Env`. Schema-version gating and malformed-document handling sit inside them and are not checked here. The exception a malformed server body would raise is not modelled.
- `file_md5`: `file.py` is not part of this model. The hasher is uninterpreted, with `None` for a missing file. That the missing-file value differs from every recorded digest is a hypothesis (`SentinelIsUnrecorded`, `MissingFileIsOutdated`).
- FileSystem.RemoveEmptySubdirs: `file.py` is not part of this model. Only the result of the bottom-up removal is stated: a directory survives iff a file lies below it. This is taken from the pruning test, not from the traversal.
- Filesystem exceptions of the download loop (`OSError` from `mkdir` or `open` when a path component is a file or the target is a directory), and the `ValueError` branch of `relative_to`: not modelled. The model overwrites instead.
- ConfiggeryClient.DownloadConfigurations: does not claim that the directory stays a well-formed tree. In the source, a path clash makes `mkdir` or `open` raise, and that is not modelled.
- Glob and symlink semantics: the recursive glob's order is a parameter of `Prune.DeleteUndeclaredByWalk`. Paths are compared as the already-normalised strings `str(rel_path)` gives.
- Path resolution: `joinpath` drops `.` and empty components, and `read_bytes` resolves `..` and absolute names against the real disk. The model uses declared paths and looked-up names as literal keys of the directory. Every property in `ClientProperties` that reads or writes files therefore assumes normalised declared paths (`NormalisedPaths`). Without that, the source prunes the file of a path such as `./foo.json` and downloads it again on every run.
- ConfiggeryClient.Lookup: a looked-up name is taken literally. The source serves `./foo.json` from `foo.json`, and `../configurations.json` from the metadata file; the model answers not-found for both unless that literal key is present.
- ConfiggeryClient.GetConfiguration: inherits the literal-name lookup of `ConfiggeryClient.Lookup`.
- ConfiggeryClient.ReadBytes: decides on the literal key; the resolution of `./`, `//`, `..` and absolute names by `read_bytes` is not modelled.
- ClientProperties.AliasLookupNeverServed: holds for normalised names and normalised declared paths only. A non-normalised alias such as `./foo.json` can resolve to a declared file and be served, and so can the alias `foo.json` when another entry declares the path `./foo.json`.
- `os.sync` and logging: no observable effect, except the decoding of error bodies in the log lines, which `ClientAsWritten` models.
- ConfiggeryClient.CheckLatest: `ConfiggeryClient.CheckLatest` returns the intended failure for every non-200 response. As written, a body that is not UTF-8 raises `UnicodeDecodeError` first; `ClientAsWritten.CheckLatest` covers that case.
- ConfiggeryClient.Reconcile: `ConfiggeryClient.Reconcile` returns the intended failure for every non-200 response. As written, a body that is not UTF-8 raises first; `ClientAsWritten.Reconcile` covers that case.
- ConfiggeryClient.DownloadConfigurations: `ConfiggeryClient.DownloadConfigurations` returns the intended failures for every non-200 response. As written, a body that is not UTF-8 raises first; `ClientAsWritten.DownloadConfigurations` covers that case.
- ConfiggeryClient.UpdateState: `ConfiggeryClient.UpdateState` returns false for every non-200 response. As written, a body that is not UTF-8 raises first; `ClientAsWritten.UpdateState` covers that case.
- ClientProperties.DownloadIsFailFastInPathOrder: states the intended failure result. As written, an undecodable error body raises instead (`ClientAsWritten.DownloadWithSnapshot`).
- The UTF-8 decoding of a 200 metadata body before `json.loads`: it belongs to the opaque parser.
- `time_since_last_checked`: timestamps are whole seconds, with no time zones or `datetime`.
- Concurrency: the client is single-threaded, and nothing else writes the directory.
- Metadata.SortByPath: proves the result is sorted and a permutation, but not the stability of Python's `sorted` among equal paths. This matters only when two entries share a path, which the server rules out.
- Download.DownloadLazy: on its own it states only that requests are configuration requests and that the loop is fail-fast. Request order and written contents are proved through `Download.LazyIsEager`, under the server's guarantee of unique paths.
- ClientProperties.DownloadIsFailFastInPathOrder: assumes unique paths in the snapshot. The server guarantees this and the client never checks it.

## Findings

| source | as written | input that shows it | evidently intended | confidence | as-written member | corrected member |
|---|---|---|---|---|---|---|
| src/configgery/client.py:221-223 | an alias match reads the file named by `config.alias`, which is the argument itself | metadata with `{path: "bar.json", alias: "abc.json"}` (a normalised alias); after a successful `download_configurations`, `get_configuration("abc.json")` reads `configurations/abc.json`, which pruning has deleted, so it raises `FileNotFoundError` | an alias match reads `config.path`, returning the contents of `bar.json` | high; not executed | ClientProperties.AliasLookupNeverServed | ClientProperties.CorrectedAliasLookupServed |
| src/configgery/client.py:115 | the log line of a failed metadata request calls `r.data.decode("utf-8")`, which raises on a body that is not UTF-8 | `/v1/current_configurations` answered with status 500 and body `b'\xff'`: `check_latest` raises `UnicodeDecodeError` and leaves the state as it was | log the failure, set `Invalid_FailedToLoadMetadata`, drop the snapshot and return false | medium; not executed | ClientAsWritten.CheckLatestRaisesOnUndecodableBody | ConfiggeryClient.CheckLatest |
| src/configgery/client.py:156-157 | the log line of a failed configuration download calls `r.data.decode("utf-8")` before the state is set | the first outdated configuration answered with status 404 and body `b'\xff'`: `download_configurations` raises with that file left empty and the state not set to `Invalid_FailedToDownload` | log the failure, set `Invalid_FailedToDownload` and return false | medium; not executed | ClientAsWritten.DownloadRaisesOnUndecodableBody | ClientProperties.DownloadIsFailFastInPathOrder |
| src/configgery/client.py:194-195 | the log line of a failed state update calls `r.data.decode("utf-8")` | `/v1/update_state` answered with status 500 and body `b'\xff'`: `update_state` raises `UnicodeDecodeError` | log the failure and return false | medium; not executed | ClientAsWritten.UpdateStateRaisesOnUndecodableBody | ConfiggeryClient.UpdateState |

=== FILE: client.dfy ===
/** The `Client` of `src/configgery/client.py` as a state machine over an
    abstract world: each operation takes the client record and the
    environment and returns the new record and the requests it issued. */
module ConfiggeryClient {
  import opened Types
  import opened Metadata
  import opened FileSystem
  import Staleness
  import Prune
  import opened Download
  import opened Transport

  datatype State =
    | Outdated
    | MetadataDownloaded
    | Valid
    | InvalidFailedToLoadMetadata
    | InvalidFailedToDownload

  /** The events a device reports (`DeviceState`). */
  datatype DeviceState = ConfigurationsApplied | Upvote | Downvote

  /** `device_state.name`, the `action` field of the request. */
  function ActionName(s: DeviceState): string {
    match s
    case ConfigurationsApplied => "ConfigurationsApplied"
    case Upvote => "Upvote"
    case Downvote => "Downvote"
  }

  /** The client and the part of the disk it owns: its state, the snapshot in
      memory, the `configurations` directory and the bytes of
      `configurations.json` (`None` when that file does not exist). */
  datatype Client = Client(
    state: State,
    metadata: Option<DeviceGroupMetadata>,
    dir: Directory,
    metadataFile: Option<Bytes>)

  /** Everything the client calls but this model does not define: the
      device API, `json.loads` with `DeviceGroupMetadata.from_server`,
      `save_metadata_file`, `load_metadata_file` and `file_md5`. */
  datatype Env = Env(
    server: Server,
    parse: Bytes -> DeviceGroupMetadata,
    save: DeviceGroupMetadata -> Bytes,
    load: Bytes -> Option<DeviceGroupMetadata>,
    digest: Hasher)

  /** An operation's return value, the client afterwards, and the requests it
      sent, in order. */
  datatype Step<T> = Step(value: T, client: Client, requests: seq<Request>)

  /** The exceptions the modelled code lets escape. */
  datatype Error =
    /** `'NoneType' object has no attribute ...`: a query on a missing snapshot */
    | NoMetadata
    | FileNotFound(path: Path)
    | IsADirectory(path: Path)
    /** A directory above the path is a regular file. */
    | NotADirectory(path: Path)

  /** The state each `State` allows for the snapshot in memory. */
  predicate Consistent(c: Client) {
    match c.state
    case Outdated => true
    case InvalidFailedToLoadMetadata => c.metadata.None?
    case _ => c.metadata.Some?
  }

  /** `Client.__init__`: the snapshot comes from `configurations.json` when
      that file exists; the state is `Outdated` either way. */
  function New(dir: Directory, metadataFile: Option<Bytes>, env: Env): (c: Client)
    ensures c.state == Outdated && c.dir == dir && c.metadataFile == metadataFile
    ensures metadataFile.None? ==> c.metadata.None?
    ensures metadataFile.Some? ==> c.metadata == env.load(metadataFile.value)
    ensures Consistent(c)
  {
    var loaded := if metadataFile.Some? then env.load(metadataFile.value) else None;
    Client(Outdated, loaded, dir, metadataFile)
  }

  /** `check_latest`: one request for the current configurations. */
  function CheckLatest(c: Client, env: Env): (r: Step<bool>)
    ensures r.requests == [CurrentConfigurations]
    ensures r.value <==> IsOk(env.server(CurrentConfigurations))
    ensures r.client.dir == c.dir
    ensures r.value ==>
      && r.client.state == MetadataDownloaded
      && r.client.metadata == Some(env.parse(env.server(CurrentConfigurations).body))
      && r.client.metadataFile == Some(env.save(r.client.metadata.value))
    ensures !r.value ==>
      && r.client.state == InvalidFailedToLoadMetadata
      && r.client.metadata.None?
      && r.client.metadataFile == c.metadataFile
    ensures Consistent(r.client)
  {
    var response := env.server(CurrentConfigurations);
    if IsOk(response) then
      var m := env.parse(response.body);
      Step(true, c.(metadata := Some(m), metadataFile := Some(env.save(m)), state := MetadataDownloaded), [CurrentConfigurations])
    else
      Step(false, c.(state := InvalidFailedToLoadMetadata, metadata := None), [CurrentConfigurations])
  }

  /** A client restarted on the file `check_latest` saved holds the same
      snapshot, provided the metadata file format round-trips. */
  lemma RestartRecoversSnapshot(c: Client, env: Env)
    requires var r := CheckLatest(c, env);
      r.value ==> env.load(env.save(r.client.metadata.value)) == r.client.metadata
    ensures var r := CheckLatest(c, env);
      r.value ==> New(c.dir, r.client.metadataFile, env).metadata == r.client.metadata
  {
  }

  /** `time_since_last_checked`, in whole seconds: the epoch is the baseline
      when no snapshot is held. */
  function TimeSinceLastChecked(c: Client, now: int): (elapsed: int)
    ensures c.metadata.Some? ==> elapsed + c.metadata.value.lastChecked == now
    ensures c.metadata.None? ==> elapsed == now
  {
    match c.metadata
    case None => now
    case Some(m) => now - m.lastChecked
  }

  /** `_remove_old_configurations`. */
  function RemoveOldConfigurations(c: Client): (r: Client)
    ensures r.state == c.state && r.metadata == c.metadata && r.metadataFile == c.metadataFile
    ensures c.metadata.None? ==> r.dir == c.dir
    ensures c.metadata.Some? ==>
      && r.dir.files.Keys == c.dir.files.Keys * DeclaredPaths(c.metadata.value)
      && (forall p :: p in r.dir.files ==> r.dir.files[p] == c.dir.files[p])
      && (forall x :: x in r.dir.dirs ==> !IsEmptyDir(r.dir, x))
      && (WellFormed(c.dir) ==> WellFormed(r.dir))
  {
    match c.metadata
    case None => c
    case Some(m) => c.(dir := Prune.Prune(c.dir, DeclaredPaths(m)))
  }

  /** `outdated_configurations`: fails when no snapshot is held. */
  function OutdatedConfigurations(c: Client, digest: Hasher): (r: Result<seq<ConfigurationMetadata>, Error>)
    ensures c.metadata.None? ==> r == Failure(NoMetadata)
    ensures c.metadata.Some? ==> r.Success?
    ensures r.Success? ==>
      && (forall x :: x in r.value <==> x in c.metadata.value.configurations && Staleness.IsStale(x, c.dir, digest))
      && SortedByPath(r.value)
      && (UniquePaths(c.metadata.value.configurations) ==> UniquePaths(r.value))
  {
    match c.metadata
    case None => Failure(NoMetadata)
    case Some(m) =>
      var r := Staleness.Outdated(m, c.dir, digest);
      assert UniquePaths(m.configurations) ==> UniquePaths(r) by {
        if UniquePaths(m.configurations) {
          UniquePathsShrink(r, m.configurations);
        }
      }
      Success(r)
  }

  /** `is_download_needed`: fails when no snapshot is held. */
  function IsDownloadNeeded(c: Client, digest: Hasher): (r: Result<bool, Error>)
    ensures c.metadata.None? ==> r == Failure(NoMetadata)
    ensures c.metadata.Some? ==> r.Success?
    ensures r.Success? ==> (r.value <==> OutdatedConfigurations(c, digest).value != [])
  {
    match c.metadata
    case None => Failure(NoMetadata)
    case Some(m) => Success(Staleness.IsDownloadNeeded(m, c.dir, digest))
  }

  /** The first line of `download_configurations`: `check_latest` runs only
      when no snapshot is held. */
  function Refresh(c: Client, env: Env): (r: Step<bool>)
    ensures r.value <==> r.client.metadata.Some?
    ensures c.metadata.Some? ==> r == Step(true, c, [])
    ensures c.metadata.None? ==> r == CheckLatest(c, env)
  {
    if c.metadata.None? then CheckLatest(c, env) else Step(true, c, [])
  }

  /** The part of `download_configurations` after the snapshot is in hand:
      prune, then fetch every outdated entry in path order, stopping at the
      first failure. */
  function Reconcile(c: Client, env: Env): (r: Step<bool>)
    requires c.metadata.Some?
    ensures forall i :: 0 <= i < |r.requests| ==> r.requests[i].Configuration?
    ensures r.value <==> r.client.state == Valid
    ensures !r.value ==> r.client.state == InvalidFailedToDownload
    ensures !r.value ==> |r.requests| > 0 && !IsOk(env.server(r.requests[|r.requests| - 1]))
    ensures r.client.metadata == c.metadata && r.client.metadataFile == c.metadataFile
    ensures r.client.dir.files.Keys <= DeclaredPaths(c.metadata.value)
  {
    var pruned := RemoveOldConfigurations(c);
    var m := c.metadata.value;
    var sorted := SortByPath(m.configurations);
    var loop := DownloadLazy(sorted, pruned.dir, env.digest, env.server);
    DownloadLazyFiles(sorted, pruned.dir, env.digest, env.server);
    assert PathsOf(sorted) <= DeclaredPaths(m) by {
      forall p | p in PathsOf(sorted)
        ensures p in DeclaredPaths(m)
      {
        var x :| x in sorted && x.path == p;
        assert x in multiset(sorted);
      }
    }
    var state := if loop.allOk then Valid else InvalidFailedToDownload;
    Step(loop.allOk, pruned.(dir := loop.dir, state := state), loop.requests)
  }

  /** `download_configurations`: refresh when no snapshot is held, then
      reconcile the directory with it. */
  function DownloadConfigurations(c: Client, env: Env): (r: Step<bool>)
    ensures c.metadata.None? && !IsOk(env.server(CurrentConfigurations)) ==>
      && !r.value
      && r.requests == [CurrentConfigurations]
      && r.client.dir == c.dir
      && r.client.state == InvalidFailedToLoadMetadata
    ensures c.metadata.Some? ==> forall i :: 0 <= i < |r.requests| ==> r.requests[i].Configuration?
    ensures r.value <==> r.client.state == Valid
    ensures !r.value ==> r.client.state == InvalidFailedToLoadMetadata || r.client.state == InvalidFailedToDownload
    ensures c.metadata.Some? ==> r.client.metadata == c.metadata
    ensures r.client.metadata.Some? ==> r.client.dir.files.Keys <= DeclaredPaths(r.client.metadata.value)
    ensures Consistent(r.client)
  {
    var pre := Refresh(c, env);
    if !pre.value then pre
    else
      var rest := Reconcile(pre.client, env);
      Step(rest.value, rest.client, pre.requests + rest.requests)
  }

  /** The `update_state` request reporting `s` for the snapshot `m`. */
  function StateUpdateRequest(m: DeviceGroupMetadata, s: DeviceState): Request {
    StateUpdate(m.deviceGroupId, m.deviceGroupVersion, ActionName(s))
  }

  /** `update_state`: nothing is sent without a snapshot. */
  function UpdateState(c: Client, s: DeviceState, env: Env): (r: Step<bool>)
    ensures r.client == c
    ensures c.metadata.None? ==> !r.value && r.requests == []
    ensures c.metadata.Some? ==>
      && r.requests == [StateUpdate(c.metadata.value.deviceGroupId, c.metadata.value.deviceGroupVersion, ActionName(s))]
      && (r.value <==> IsOk(env.server(r.requests[0])))
  {
    match c.metadata
    case None => Step(false, c, [])
    case Some(m) =>
      var request := StateUpdateRequest(m, s);
      Step(IsOk(env.server(request)), c, [request])
  }

  /** Different device states are reported as different actions. */
  lemma ActionNameInjective(s: DeviceState, t: DeviceState)
    requires s != t
    ensures ActionName(s) != ActionName(t)
  {
  }

  /** The first configuration, in the snapshot's iteration order, at `name`. */
  function FirstWithPath(cs: seq<ConfigurationMetadata>, name: Path): (r: Option<ConfigurationMetadata>)
    ensures r.Some? ==> r.value in cs && r.value.path == name
    ensures r.Some? ==> exists i :: 0 <= i < |cs| && cs[i] == r.value && forall j :: 0 <= j < i ==> cs[j].path != name
    ensures r.None? ==> forall x :: x in cs ==> x.path != name
  {
    if cs == [] then None
    else if cs[0].path == name then Some(cs[0])
    else
      var r := FirstWithPath(cs[1..], name);
      assert r.Some? ==> exists i :: 0 < i < |cs| && cs[i] == r.value && forall j :: 0 <= j < i ==> cs[j].path != name by {
        if r.Some? {
          var k :| 0 <= k < |cs[1..]| && cs[1..][k] == r.value && forall j :: 0 <= j < k ==> cs[1..][j].path != name;
          assert forall j :: 1 <= j < k + 1 ==> cs[j] == cs[1..][j - 1];
        }
      }
      r
  }

  /** The first configuration, in the snapshot's iteration order, aliased `name`. */
  function FirstWithAlias(cs: seq<ConfigurationMetadata>, name: string): (r: Option<ConfigurationMetadata>)
    ensures r.Some? ==> r.value in cs && r.value.alias == Some(name)
    ensures r.Some? ==> exists i :: 0 <= i < |cs| && cs[i] == r.value && forall j :: 0 <= j < i ==> cs[j].alias != Some(name)
    ensures r.None? ==> forall x :: x in cs ==> x.alias != Some(name)
  {
    if cs == [] then None
    else if cs[0].alias == Some(name) then Some(cs[0])
    else
      var r := FirstWithAlias(cs[1..], name);
      assert r.Some? ==> exists i :: 0 < i < |cs| && cs[i] == r.value && forall j :: 0 <= j < i ==> cs[j].alias != Some(name) by {
        if r.Some? {
          var k :| 0 <= k < |cs[1..]| && cs[1..][k] == r.value && forall j :: 0 <= j < k ==> cs[1..][j].alias != Some(name);
          assert forall j :: 1 <= j < k + 1 ==> cs[j] == cs[1..][j - 1];
        }
      }
      r
  }

  /** `read_bytes` on a path below the `configurations` directory. The
      lookup of a directory above the path fails first when that directory
      is a regular file. */
  function ReadBytes(d: Directory, p: Path): (r: Result<Bytes, Error>)
    ensures r.Success? <==> p in d.files
    ensures r.Success? ==> r.value == d.files[p]
    ensures r.Failure? ==> r.error.FileNotFound? || r.error.IsADirectory? || r.error.NotADirectory?
    ensures r.Failure? ==> r.error.path == p
    ensures r.Failure? ==> (r.error.NotADirectory? <==> exists a :: a in d.files && IsAncestor(a, p))
    ensures r.Failure? && r.error.IsADirectory? ==> p == "" || p in d.dirs
    ensures r.Failure? && r.error.FileNotFound? ==> p != "" && p !in d.dirs
  {
    if p in d.files then Success(d.files[p])
    else if exists a :: a in d.files && IsAncestor(a, p) then Failure(NotADirectory(p))
    else if p == "" || p in d.dirs then Failure(IsADirectory(p))
    else Failure(FileNotFound(p))
  }

  /** Reading `a/b` where `a` is a regular file raises `NotADirectoryError`;
      reading a directory raises `IsADirectoryError`. */
  lemma ReadBytesErrorsExample()
    ensures ReadBytes(Directory(map["a" := []], {}), "a/b") == Failure(NotADirectory("a/b"))
    ensures ReadBytes(Directory(map["a/b" := []], {"a"}), "a") == Failure(IsADirectory("a"))
    ensures ReadBytes(Directory(map[], {}), "a") == Failure(FileNotFound("a"))
  {
    assert IsAncestor("a", "a/b");
  }

  function Found(read: Result<Bytes, Error>): Result<(bool, Bytes), Error> {
    match read
    case Success(bytes) => Success((true, bytes))
    case Failure(e) => Failure(e)
  }

  /** A snapshot is held and nothing is outdated: the only case in which
      `get_configuration` reads a file. */
  predicate ReadyToServe(c: Client, digest: Hasher) {
    c.metadata.Some? && !Staleness.IsDownloadNeeded(c.metadata.value, c.dir, digest)
  }

  /** Some configuration is at `name` or aliased `name`. */
  predicate Declares(m: DeviceGroupMetadata, name: string) {
    exists x :: x in m.configurations && (x.path == name || x.alias == Some(name))
  }

  /** The two loops of `get_configuration` as written: an exact path match
      first, then an alias match. Both read the file named by the argument
      itself: the alias branch reads `config.alias`, not `config.path`. */
  function Lookup(m: DeviceGroupMetadata, d: Directory, name: string): (r: Result<(bool, Bytes), Error>)
    ensures r.Success? ==> r.value.0 && name in d.files && r.value.1 == d.files[name]
    ensures r.Failure? ==> !r.error.NoMetadata? && r.error.path == name
    ensures !Declares(m, name) ==> r == Failure(FileNotFound(name))
  {
    match FirstWithPath(m.configurations, name)
    case Some(x) => Found(ReadBytes(d, x.path))
    case None =>
      match FirstWithAlias(m.configurations, name)
      case Some(x) => Found(ReadBytes(d, x.alias.value))
      case None => Failure(FileNotFound(name))
  }

  /** A name some entry declares, as its path or its alias, is served from
      the file of that name when one exists. */
  lemma LookupServesDeclaredName(m: DeviceGroupMetadata, d: Directory, name: string)
    requires Declares(m, name) && name in d.files
    ensures Lookup(m, d, name) == Success((true, d.files[name]))
  {
    if FirstWithPath(m.configurations, name).None? {
      var x :| x in m.configurations && (x.path == name || x.alias == Some(name));
      assert x.alias == Some(name);
    }
  }

  /** `get_configuration` as written: nothing is read without a snapshot or
      while a download is needed. */
  function GetConfiguration(c: Client, name: string, digest: Hasher): (r: Result<(bool, Bytes), Error>)
    ensures !ReadyToServe(c, digest) ==> r == Success((false, []))
    ensures r.Success? && r.value.0 ==> name in c.dir.files && r.value.1 == c.dir.files[name]
    ensures r.Failure? ==> !r.error.NoMetadata? && r.error.path == name
    ensures ReadyToServe(c, digest) && !Declares(c.metadata.value, name) ==> r == Failure(FileNotFound(name))
  {
    if c.metadata.None? then Success((false, []))
    else if Staleness.IsDownloadNeeded(c.metadata.value, c.dir, digest) then Success((false, []))
    else Lookup(c.metadata.value, c.dir, name)
  }

  /** Once nothing is outdated, a name some entry declares, as its path or
      its alias, is served from the file of that name when one exists. */
  lemma GetConfigurationServesDeclaredName(c: Client, name: string, digest: Hasher)
    requires ReadyToServe(c, digest) && Declares(c.metadata.value, name) && name in c.dir.files
    ensures GetConfiguration(c, name, digest) == Success((true, c.dir.files[name]))
  {
    LookupServesDeclaredName(c.metadata.value, c.dir, name);
  }

  /** A snapshot declaring `a`, whose file is present with the recorded
      digest, serves `a` from that file. */
  lemma ServesDeclaredNameExample()
    ensures
      var m := DeviceGroupMetadata("g", 1, [ConfigurationMetadata("c", "a", "x", 1, None)], 0);
      var c := Client(Valid, Some(m), Directory(map["a" := [7]], {}), None);
      GetConfiguration(c, "a", _ => "x") == Success((true, [7]))
  {
    var x := ConfigurationMetadata("c", "a", "x", 1, None);
    var m := DeviceGroupMetadata("g", 1, [x], 0);
    var c := Client(Valid, Some(m), Directory(map["a" := [7]], {}), None);
    assert !Staleness.IsStale(x, c.dir, _ => "x");
    GetConfigurationServesDeclaredName(c, "a", _ => "x");
  }

  /** The two loops of `get_configuration` with the alias branch reading the
      matched configuration's own file, `config.path`. */
  function LookupCorrected(m: DeviceGroupMetadata, d: Directory, name: string): (r: Result<(bool, Bytes), Error>)
    ensures r.Success? ==>
      exists x :: x in m.configurations && (x.path == name || x.alias == Some(name))
        && x.path in d.files && r.value == (true, d.files[x.path])
    ensures (exists x :: x in m.configurations && x.path == name) ==> r == Found(ReadBytes(d, name))
    ensures FirstWithPath(m.configurations, name).None? && FirstWithAlias(m.configurations, name).Some? ==>
      r == Found(ReadBytes(d, FirstWithAlias(m.configurations, name).value.path))
    ensures !Declares(m, name) ==> r == Failure(FileNotFound(name))
  {
    match FirstWithPath(m.configurations, name)
    case Some(x) => Found(ReadBytes(d, x.path))
    case None =>
      match FirstWithAlias(m.configurations, name)
      case Some(x) => Found(ReadBytes(d, x.path))
      case None => Failure(FileNotFound(name))
  }

  /** `get_configuration` with the corrected lookup. */
  function GetConfigurationCorrected(c: Client, name: string, digest: Hasher): (r: Result<(bool, Bytes), Error>)
    ensures !ReadyToServe(c, digest) ==> r == Success((false, []))
    ensures r.Success? && r.value.0 ==>
      exists x :: x in c.metadata.value.configurations && (x.path == name || x.alias == Some(name))
        && x.path in c.dir.files && r.value.1 == c.dir.files[x.path]
    ensures ReadyToServe(c, digest) && (exists x :: x in c.metadata.value.configurations && x.path == name) ==>
      r == Found(ReadBytes(c.dir, name))
    ensures ReadyToServe(c, digest) && !Declares(c.metadata.value, name) ==> r == Failure(FileNotFound(name))
  {
    if c.metadata.None? then Success((false, []))
    else if Staleness.IsDownloadNeeded(c.metadata.value, c.dir, digest) then Success((false, []))
    else LookupCorrected(c.metadata.value, c.dir, name)
  }
}

=== FILE: client_as_written.dfy ===
/** The three operations whose non-200 branch logs the response body with
    an f-string that calls `r.data.decode("utf-8")`, modelled as written:
    an error body that is not well-formed UTF-8 makes that call raise
    `UnicodeDecodeError` before the branch records its failure. Everywhere
    else they behave as the operations of `ConfiggeryClient`, which return
    the failure instead. */
module ClientAsWritten {
  import opened Types
  import opened Metadata
  import opened Transport
  import Utf8
  import ConfiggeryClient
  import ClientProperties
  import Staleness
  import Download
  import FileSystem

  /** How a call ends: it returns a step, or `UnicodeDecodeError` escapes,
      leaving the client as it was at that point after the requests sent
      so far. */
  datatype Outcome<T> =
    | Returned(step: ConfiggeryClient.Step<T>)
    | RaisedDecodeError(client: ConfiggeryClient.Client, requests: seq<Request>)

  /** Logging the failed response `r` raises. */
  predicate LogRaises(r: Response) {
    !IsOk(r) && !Utf8.Decodes(r.body)
  }

  /** `check_latest` as written: the exception escapes before the state and
      the snapshot are touched. */
  function CheckLatest(c: ConfiggeryClient.Client, env: ConfiggeryClient.Env): (r: Outcome<bool>)
    ensures r.RaisedDecodeError? <==> LogRaises(env.server(CurrentConfigurations))
    ensures r.RaisedDecodeError? ==> r.client == c && r.requests == [CurrentConfigurations]
    ensures r.Returned? ==> r.step == ConfiggeryClient.CheckLatest(c, env)
  {
    var response := env.server(CurrentConfigurations);
    if LogRaises(response) then RaisedDecodeError(c, [CurrentConfigurations])
    else Returned(ConfiggeryClient.CheckLatest(c, env))
  }

  /** `update_state` as written. */
  function UpdateState(c: ConfiggeryClient.Client, s: ConfiggeryClient.DeviceState, env: ConfiggeryClient.Env): (r: Outcome<bool>)
    ensures r.RaisedDecodeError? <==>
      c.metadata.Some? && LogRaises(env.server(ConfiggeryClient.StateUpdateRequest(c.metadata.value, s)))
    ensures r.RaisedDecodeError? ==>
      r.client == c && r.requests == [ConfiggeryClient.StateUpdateRequest(c.metadata.value, s)]
    ensures r.Returned? ==> r.step == ConfiggeryClient.UpdateState(c, s, env)
  {
    match c.metadata
    case None => Returned(ConfiggeryClient.UpdateState(c, s, env))
    case Some(m) =>
      var request := ConfiggeryClient.StateUpdateRequest(m, s);
      if LogRaises(env.server(request)) then RaisedDecodeError(c, [request])
      else Returned(ConfiggeryClient.UpdateState(c, s, env))
  }

  /** The part of `download_configurations` as written after the snapshot
      is in hand: the exception escapes from the loop after the failing
      entry's file was truncated, leaving the state as it was. */
  function Reconcile(c: ConfiggeryClient.Client, env: ConfiggeryClient.Env): (r: Outcome<bool>)
    requires c.metadata.Some?
    ensures var d := ConfiggeryClient.Reconcile(c, env);
      r.RaisedDecodeError? <==> !d.value && LogRaises(env.server(d.requests[|d.requests| - 1]))
    ensures r.Returned? ==> r.step == ConfiggeryClient.Reconcile(c, env)
    ensures var d := ConfiggeryClient.Reconcile(c, env);
      r.RaisedDecodeError? ==> r.client == d.client.(state := c.state) && r.requests == d.requests
  {
    var d := ConfiggeryClient.Reconcile(c, env);
    if !d.value && LogRaises(env.server(d.requests[|d.requests| - 1])) then
      RaisedDecodeError(d.client.(state := c.state), d.requests)
    else
      Returned(d)
  }

  /** `download_configurations` as written. */
  function DownloadConfigurations(c: ConfiggeryClient.Client, env: ConfiggeryClient.Env): (r: Outcome<bool>)
    ensures r.RaisedDecodeError? ==> r.requests != [] && LogRaises(env.server(r.requests[|r.requests| - 1]))
  {
    if c.metadata.Some? then Reconcile(c, env)
    else
      match CheckLatest(c, env)
      case RaisedDecodeError(client, requests) => RaisedDecodeError(client, requests)
      case Returned(p) =>
        if !p.value then Returned(p)
        else
          match Reconcile(p.client, env)
          case RaisedDecodeError(client, requests) => RaisedDecodeError(client, [CurrentConfigurations] + requests)
          case Returned(q) => Returned(ConfiggeryClient.Step(q.value, q.client, [CurrentConfigurations] + q.requests))
  }

  /** With a snapshot held, the download as written returns what the
      corrected one returns unless the loop's failing response has an
      undecodable body; then it raises after the same requests, with the
      same directory, and with the state it started from. */
  lemma DownloadWithSnapshot(c: ConfiggeryClient.Client, env: ConfiggeryClient.Env)
    requires c.metadata.Some?
    ensures var r := DownloadConfigurations(c, env);
      var d := ConfiggeryClient.DownloadConfigurations(c, env);
      && (r.RaisedDecodeError? <==> !d.value && LogRaises(env.server(d.requests[|d.requests| - 1])))
      && (r.Returned? ==> r.step == d)
      && (r.RaisedDecodeError? ==> r.client == d.client.(state := c.state) && r.requests == d.requests)
  {
    ClientProperties.DownloadWithSnapshot(c, env);
    assert ConfiggeryClient.DownloadConfigurations(c, env) == ConfiggeryClient.Reconcile(c, env);
    assert DownloadConfigurations(c, env) == Reconcile(c, env);
  }

  /** Without a snapshot, the download as written returns what the
      corrected one returns, or raises where the corrected one fails on an
      undecodable error body, after the same requests and with the same
      directory. */
  lemma DownloadWithoutSnapshot(c: ConfiggeryClient.Client, env: ConfiggeryClient.Env)
    requires c.metadata.None?
    ensures var r := DownloadConfigurations(c, env);
      var d := ConfiggeryClient.DownloadConfigurations(c, env);
      && (r.Returned? ==> r.step == d)
      && (r.RaisedDecodeError? ==>
            && r.requests == d.requests
            && r.client.dir == d.client.dir
            && !d.value
            && LogRaises(env.server(d.requests[|d.requests| - 1])))
  {
    if IsOk(env.server(CurrentConfigurations)) {
      DownloadAfterFetch(c, env);
    }
  }

  /** The case of a successful fetch: both versions go on to reconcile the
      fetched snapshot, after the one metadata request. */
  lemma DownloadAfterFetch(c: ConfiggeryClient.Client, env: ConfiggeryClient.Env)
    requires c.metadata.None? && IsOk(env.server(CurrentConfigurations))
    ensures var r := DownloadConfigurations(c, env);
      var d := ConfiggeryClient.DownloadConfigurations(c, env);
      && (r.Returned? ==> r.step == d)
      && (r.RaisedDecodeError? ==>
            && r.requests == d.requests
            && r.client.dir == d.client.dir
            && !d.value
            && LogRaises(env.server(d.requests[|d.requests| - 1])))
  {
    var p := ConfiggeryClient.CheckLatest(c, env);
    ClientProperties.DownloadAfterRefresh(c, env);
    ClientProperties.DownloadWithSnapshot(p.client, env);
    var q := ConfiggeryClient.Reconcile(p.client, env);
    var requests := [CurrentConfigurations] + q.requests;
    assert CheckLatest(c, env) == Returned(p);
    assert ConfiggeryClient.DownloadConfigurations(c, env) == ConfiggeryClient.Step(q.value, q.client, requests);
    if !q.value {
      assert requests[|requests| - 1] == q.requests[|q.requests| - 1];
    }
  }

  /** A 500 whose body is the byte 0xFF makes `check_latest` as written raise
      with the client unchanged, where the corrected one returns false in
      `Invalid_FailedToLoadMetadata`. */
  lemma CheckLatestRaisesOnUndecodableBody(c: ConfiggeryClient.Client, env: ConfiggeryClient.Env)
    requires env.server(CurrentConfigurations) == Response(500, [0xFF])
    ensures CheckLatest(c, env) == RaisedDecodeError(c, [CurrentConfigurations])
    ensures var d := ConfiggeryClient.CheckLatest(c, env);
      !d.value && d.client.state == ConfiggeryClient.InvalidFailedToLoadMetadata
  {
  }

  /** A 500 whose body is the byte 0xFF makes `update_state` as written
      raise, where the corrected one returns false. */
  lemma UpdateStateRaisesOnUndecodableBody(c: ConfiggeryClient.Client, s: ConfiggeryClient.DeviceState, env: ConfiggeryClient.Env)
    requires c.metadata.Some?
    requires env.server(ConfiggeryClient.StateUpdateRequest(c.metadata.value, s)) == Response(500, [0xFF])
    ensures UpdateState(c, s, env).RaisedDecodeError?
    ensures ConfiggeryClient.UpdateState(c, s, env) == ConfiggeryClient.Step(false, c, [ConfiggeryClient.StateUpdateRequest(c.metadata.value, s)])
  {
  }

  /** When the first outdated entry is answered with a 404 whose body is the
      byte 0xFF, `download_configurations` as written raises after that one
      request, leaving the state as it was; the corrected one returns false
      in `Invalid_FailedToDownload`. */
  lemma DownloadRaisesOnUndecodableBody(c: ConfiggeryClient.Client, env: ConfiggeryClient.Env)
    requires c.metadata.Some? && UniquePaths(c.metadata.value.configurations)
    requires NormalisedPaths(c.metadata.value.configurations)
    requires var todo := Staleness.Outdated(c.metadata.value, ClientProperties.PrunedDir(c), env.digest);
      todo != [] && env.server(Download.ConfigurationRequest(todo[0])) == Response(404, [0xFF])
    ensures var todo := Staleness.Outdated(c.metadata.value, ClientProperties.PrunedDir(c), env.digest);
      var r := DownloadConfigurations(c, env);
      && r.RaisedDecodeError?
      && r.client.state == c.state
      && r.requests == [Download.ConfigurationRequest(todo[0])]
    ensures var d := ConfiggeryClient.DownloadConfigurations(c, env);
      !d.value && d.client.state == ConfiggeryClient.InvalidFailedToDownload
  {
    var todo := Staleness.Outdated(c.metadata.value, ClientProperties.PrunedDir(c), env.digest);
    var d := ConfiggeryClient.DownloadConfigurations(c, env);
    CorrectedStopsAtFirst(c, env);
    assert d.requests[|d.requests| - 1] == Download.ConfigurationRequest(todo[0]);
    assert !Utf8.Decodes([0xFF]);
    DownloadWithSnapshot(c, env);
  }

  /** The corrected download stops after the first outdated entry when that
      entry's request fails. */
  lemma CorrectedStopsAtFirst(c: ConfiggeryClient.Client, env: ConfiggeryClient.Env)
    requires c.metadata.Some? && UniquePaths(c.metadata.value.configurations)
    requires NormalisedPaths(c.metadata.value.configurations)
    requires var todo := Staleness.Outdated(c.metadata.value, ClientProperties.PrunedDir(c), env.digest);
      todo != [] && !IsOk(env.server(Download.ConfigurationRequest(todo[0])))
    ensures var todo := Staleness.Outdated(c.metadata.value, ClientProperties.PrunedDir(c), env.digest);
      var d := ConfiggeryClient.DownloadConfigurations(c, env);
      !d.value && d.requests == [Download.ConfigurationRequest(todo[0])]
  {
    var todo := Staleness.Outdated(c.metadata.value, ClientProperties.PrunedDir(c), env.digest);
    var d := ConfiggeryClient.DownloadConfigurations(c, env);
    ClientProperties.DownloadIsFailFastInPathOrder(c, env);
    FailFastFromFirst(todo, d.value, d.requests, env.server);
  }

  /** A fail-fast run over `todo` whose first request fails is that one
      failed request. */
  lemma FailFastFromFirst(todo: seq<ConfigurationMetadata>, ok: bool, requests: seq<Request>, server: Server)
    requires todo != [] && !IsOk(server(Download.ConfigurationRequest(todo[0])))
    requires |requests| <= |todo|
    requires forall i :: 0 <= i < |requests| ==> requests[i] == Download.ConfigurationRequest(todo[i])
    requires forall i :: 0 <= i < |requests| - 1 ==> IsOk(server(requests[i]))
    requires ok ==> |requests| == |todo| && forall i :: 0 <= i < |todo| ==> IsOk(server(requests[i]))
    requires !ok ==> |requests| > 0
    ensures !ok && requests == [Download.ConfigurationRequest(todo[0])]
  {
  }

  /** The input of the download finding, spelled out: one declared file
      `a` that is missing on disk, and a server that answers every request
      with a 404 whose body is the byte 0xFF. */
  lemma DownloadRaisesExample()
    ensures
      var cfg := ConfigurationMetadata("c", "a", "x", 1, None);
      var c := ConfiggeryClient.Client(ConfiggeryClient.Outdated,
        Some(DeviceGroupMetadata("g", 1, [cfg], 0)), FileSystem.Directory(map[], {}), None);
      var env := ConfiggeryClient.Env(_ => Response(404, [0xFF]), _ => DeviceGroupMetadata("g", 1, [], 0),
        _ => [], _ => None, (o: Option<Bytes>) => if o.None? then "n" else "y");
      var r := DownloadConfigurations(c, env);
      && r.RaisedDecodeError?
      && r.client.state == ConfiggeryClient.Outdated
      && r.requests == [Download.ConfigurationRequest(cfg)]
  {
    var cfg := ConfigurationMetadata("c", "a", "x", 1, None);
    var m := DeviceGroupMetadata("g", 1, [cfg], 0);
    var c := ConfiggeryClient.Client(ConfiggeryClient.Outdated, Some(m), FileSystem.Directory(map[], {}), None);
    var env := ConfiggeryClient.Env(_ => Response(404, [0xFF]), _ => DeviceGroupMetadata("g", 1, [], 0),
      _ => [], _ => None, (o: Option<Bytes>) => if o.None? then "n" else "y");
    assert multiset([cfg])[cfg] == 1;
    assert FileSystem.Normalised(cfg.path) by {
      FileSystem.SingleComponent(cfg.path);
    }
    var todo := Staleness.Outdated(m, ClientProperties.PrunedDir(c), env.digest);
    assert ClientProperties.PrunedDir(c).Content("a").None?;
    assert cfg in todo;
    assert multiset(todo) <= multiset([cfg]);
    assert |todo| == 1;
    DownloadRaisesOnUndecodableBody(c, env);
  }
}

=== FILE: client_properties.dfy ===
/** Properties that relate several steps of the client: the fail-fast
    download in path order, convergence after a successful download, the
    no-op second download, and the alias lookup. */
module ClientProperties {
  import opened Types
  import opened Metadata
  import opened FileSystem
  import Staleness
  import Prune
  import opened Download
  import opened Transport
  import opened ConfiggeryClient

  /** The server's bodies hash to the digests its snapshot records. */
  predicate ServesRecordedContent(m: DeviceGroupMetadata, env: Env) {
    forall x :: x in m.configurations ==> env.digest(Some(env.server(ConfigurationRequest(x)).body)) == x.md5
  }

  /** The hasher's missing-file value is never a recorded digest. */
  predicate SentinelIsUnrecorded(m: DeviceGroupMetadata, digest: Hasher) {
    forall x :: x in m.configurations ==> digest(None) != x.md5
  }

  /** The directory the download loop starts from. */
  function PrunedDir(c: Client): Directory
    requires c.metadata.Some?
  {
    Prune.Prune(c.dir, DeclaredPaths(c.metadata.value))
  }

  /** With a snapshot held, `download_configurations` sends no metadata
      request and is just the reconciliation. */
  lemma DownloadWithSnapshot(c: Client, env: Env)
    requires c.metadata.Some?
    ensures DownloadConfigurations(c, env) == Reconcile(c, env)
  {
    var rest := Reconcile(c, env);
    assert [] + rest.requests == rest.requests;
  }

  /** The download loop of a client holding a path-unique snapshot is the
      loop over the outdated list computed right after pruning. */
  lemma LoopIsOverOutdated(c: Client, env: Env)
    requires c.metadata.Some? && UniquePaths(c.metadata.value.configurations)
    requires NormalisedPaths(c.metadata.value.configurations)
    ensures var m := c.metadata.value;
      var todo := Staleness.Outdated(m, PrunedDir(c), env.digest);
      var loop := DownloadEach(todo, PrunedDir(c), env.server);
      && UniquePaths(todo)
      && DownloadConfigurations(c, env) == Step(
        loop.allOk,
        RemoveOldConfigurations(c).(dir := loop.dir, state := if loop.allOk then Valid else InvalidFailedToDownload),
        loop.requests)
  {
    var m := c.metadata.value;
    var sorted := SortByPath(m.configurations);
    UniquePathsShrink(sorted, m.configurations);
    LazyIsEager(sorted, PrunedDir(c), env.digest, env.server);
    UniquePathsShrink(Staleness.Outdated(m, PrunedDir(c), env.digest), m.configurations);
    DownloadWithSnapshot(c, env);
  }

  /** `download_configurations` on a held snapshot: the outdated entries are
      requested in path order; the first failure stops the loop with that
      entry's file left empty and later entries never requested; when every
      request succeeds each outdated path holds its body. */
  lemma DownloadIsFailFastInPathOrder(c: Client, env: Env)
    requires c.metadata.Some? && UniquePaths(c.metadata.value.configurations)
    requires NormalisedPaths(c.metadata.value.configurations)
    ensures var todo := Staleness.Outdated(c.metadata.value, PrunedDir(c), env.digest);
      var r := DownloadConfigurations(c, env);
      && |r.requests| <= |todo|
      && (forall i :: 0 <= i < |r.requests| ==> r.requests[i] == ConfigurationRequest(todo[i]))
      && (forall i :: 0 <= i < |r.requests| - 1 ==> IsOk(env.server(r.requests[i])))
      && (r.value ==>
            && |r.requests| == |todo|
            && (forall i :: 0 <= i < |todo| ==> IsOk(env.server(r.requests[i])))
            && forall i :: 0 <= i < |todo| ==> r.client.dir.Content(todo[i].path) == Some(env.server(r.requests[i]).body))
      && (!r.value ==>
            && |r.requests| > 0
            && !IsOk(env.server(r.requests[|r.requests| - 1]))
            && r.client.dir.Content(todo[|r.requests| - 1].path) == Some([])
            && r.client.state == InvalidFailedToDownload)
  {
    LoopIsOverOutdated(c, env);
    var todo := Staleness.Outdated(c.metadata.value, PrunedDir(c), env.digest);
    DownloadEachWritesBodies(todo, PrunedDir(c), env.server);
    DownloadEachTruncates(todo, PrunedDir(c), env.server);
  }

  /** Without a snapshot, `download_configurations` is `check_latest`
      followed by the download of the fetched snapshot. */
  lemma DownloadAfterRefresh(c: Client, env: Env)
    requires c.metadata.None? && IsOk(env.server(CurrentConfigurations))
    ensures var pre := CheckLatest(c, env);
      var rest := DownloadConfigurations(pre.client, env);
      DownloadConfigurations(c, env) == Step(rest.value, rest.client, [CurrentConfigurations] + rest.requests)
  {
    var pre := CheckLatest(c, env);
    var rest := Reconcile(pre.client, env);
    assert DownloadConfigurations(c, env) == Step(rest.value, rest.client, [CurrentConfigurations] + rest.requests);
    assert [] + rest.requests == rest.requests;
  }

  /** One declared entry after a successful download: it was either
      downloaded, and its body hashes to its digest, or it was already fresh
      and the loop did not touch its path. */
  lemma DownloadedEntryIsFresh(c: Client, env: Env, x: ConfigurationMetadata)
    requires c.metadata.Some? && UniquePaths(c.metadata.value.configurations)
    requires NormalisedPaths(c.metadata.value.configurations)
    requires ServesRecordedContent(c.metadata.value, env)
    requires x in c.metadata.value.configurations
    requires DownloadConfigurations(c, env).value
    ensures !Staleness.IsStale(x, DownloadConfigurations(c, env).client.dir, env.digest)
  {
    var m := c.metadata.value;
    var pruned := PrunedDir(c);
    var todo := Staleness.Outdated(m, pruned, env.digest);
    var r := DownloadConfigurations(c, env);
    LoopIsOverOutdated(c, env);
    if x in todo {
      DownloadIsFailFastInPathOrder(c, env);
      var i :| 0 <= i < |todo| && todo[i] == x;
      assert r.requests[i] == ConfigurationRequest(x);
    } else {
      DownloadEachFrame(todo, pruned, env.server);
      assert x.path !in PathsOf(todo) by {
        forall y | y in todo
          ensures y.path != x.path
        {
          assert y in m.configurations;
        }
      }
    }
  }

  /** After a successful download of a path-unique snapshot whose server
      bodies match their digests, nothing is outdated any more. */
  lemma SuccessfulDownloadConverges(c: Client, env: Env)
    requires c.metadata.Some? && UniquePaths(c.metadata.value.configurations)
    requires NormalisedPaths(c.metadata.value.configurations)
    requires ServesRecordedContent(c.metadata.value, env)
    ensures var r := DownloadConfigurations(c, env);
      r.value ==> ReadyToServe(r.client, env.digest)
  {
    var r := DownloadConfigurations(c, env);
    if r.value {
      forall x | x in c.metadata.value.configurations
        ensures !Staleness.IsStale(x, r.client.dir, env.digest)
      {
        DownloadedEntryIsFresh(c, env, x);
      }
    }
  }

  /** Pruning leaves every declared path as it was, so an entry that is
      fresh before pruning is fresh after it, whatever the other entries. */
  lemma PruneKeepsFreshness(c: Client, digest: Hasher)
    requires c.metadata.Some?
    requires NormalisedPaths(c.metadata.value.configurations)
    ensures forall x :: x in c.metadata.value.configurations && !Staleness.IsStale(x, c.dir, digest) ==>
      !Staleness.IsStale(x, PrunedDir(c), digest)
  {
    var m := c.metadata.value;
    forall x | x in m.configurations && !Staleness.IsStale(x, c.dir, digest)
      ensures !Staleness.IsStale(x, PrunedDir(c), digest)
    {
      assert x.path in DeclaredPaths(m);
      assert PrunedDir(c).Content(x.path) == c.dir.Content(x.path);
    }
  }

  /** With nothing outdated, the loop after pruning has nothing to do. */
  lemma NothingOutdatedAfterPrune(c: Client, digest: Hasher)
    requires ReadyToServe(c, digest)
    requires NormalisedPaths(c.metadata.value.configurations)
    ensures Staleness.KeepStale(SortByPath(c.metadata.value.configurations), PrunedDir(c), digest) == []
  {
    var sorted := SortByPath(c.metadata.value.configurations);
    PruneKeepsFreshness(c, digest);
    assert forall x :: x in sorted ==> x in c.metadata.value.configurations by {
      forall x | x in sorted
        ensures x in c.metadata.value.configurations
      {
        assert x in multiset(sorted);
      }
    }
    Staleness.KeepStaleNone(sorted, PrunedDir(c), digest);
  }

  /** With nothing outdated, `download_configurations` prunes, requests
      nothing and reports success. */
  lemma DownloadWhenNothingOutdatedIsNoOp(c: Client, env: Env)
    requires ReadyToServe(c, env.digest)
    requires NormalisedPaths(c.metadata.value.configurations)
    ensures var r := DownloadConfigurations(c, env);
      && r.value
      && r.requests == []
      && r.client == RemoveOldConfigurations(c).(state := Valid)
  {
    var sorted := SortByPath(c.metadata.value.configurations);
    NothingOutdatedAfterPrune(c, env.digest);
    DownloadLazyNothingStale(sorted, PrunedDir(c), env.digest, env.server);
  }

  /** Synchronising twice with no change on the server downloads nothing the
      second time and stays `Valid`. */
  lemma SecondDownloadRequestsNothing(c: Client, env: Env)
    requires c.metadata.Some? && UniquePaths(c.metadata.value.configurations)
    requires NormalisedPaths(c.metadata.value.configurations)
    requires ServesRecordedContent(c.metadata.value, env)
    ensures var first := DownloadConfigurations(c, env);
      first.value ==>
        var second := DownloadConfigurations(first.client, env);
        second.value && second.requests == [] && second.client.state == Valid
  {
    SuccessfulDownloadConverges(c, env);
    var first := DownloadConfigurations(c, env);
    if first.value {
      DownloadWhenNothingOutdatedIsNoOp(first.client, env);
    }
  }

  /** As written, after any successful download a name that is only an
      alias is never served: the alias branch reads the file named by the
      alias, and pruning has removed every file that is not a declared path. */
  lemma AliasLookupNeverServed(c: Client, env: Env, name: string)
    requires var r := DownloadConfigurations(c, env);
      && r.value && name !in DeclaredPaths(r.client.metadata.value)
      && NormalisedPaths(r.client.metadata.value.configurations)
    requires Normalised(name)
    ensures var r := DownloadConfigurations(c, env);
      var got := GetConfiguration(r.client, name, env.digest);
      !(got.Success? && got.value.0)
  {
  }

  /** With the alias branch corrected, after a successful download an alias
      of a declared configuration is served with that configuration's file. */
  lemma CorrectedAliasLookupServed(c: Client, env: Env, x: ConfigurationMetadata, name: string)
    requires c.metadata.Some? && UniquePaths(c.metadata.value.configurations)
    requires NormalisedPaths(c.metadata.value.configurations)
    requires ServesRecordedContent(c.metadata.value, env)
    requires SentinelIsUnrecorded(c.metadata.value, env.digest)
    requires x in c.metadata.value.configurations && x.alias == Some(name)
    ensures var r := DownloadConfigurations(c, env);
      var got := GetConfigurationCorrected(r.client, name, env.digest);
      r.value ==> got.Success? && got.value.0
  {
    SuccessfulDownloadConverges(c, env);
    var r := DownloadConfigurations(c, env);
    if r.value {
      var m := c.metadata.value;
      var cs := m.configurations;
      var y := match FirstWithPath(cs, name)
        case Some(p) => p
        case None => FirstWithAlias(cs, name).value;
      assert y in cs;
      assert !Staleness.IsStale(y, r.client.dir, env.digest);
    }
  }

  /** An exact path match wins over an alias match of another entry: both
      the lookup as written and the corrected one serve the file at the path. */
  lemma PathMatchWinsOverAlias(c: Client, digest: Hasher, x: ConfigurationMetadata, y: ConfigurationMetadata)
    requires ReadyToServe(c, digest)
    requires x in c.metadata.value.configurations && y in c.metadata.value.configurations
    requires y.alias == Some(x.path) && y.path != x.path
    requires x.path in c.dir.files
    ensures GetConfiguration(c, x.path, digest) == Success((true, c.dir.files[x.path]))
    ensures GetConfigurationCorrected(c, x.path, digest) == Success((true, c.dir.files[x.path]))
  {
  }
}

=== FILE: download.dfy ===
/** The fail-fast download loop of `download_configurations`. */
module Download {
  import opened Types
  import opened Metadata
  import opened FileSystem
  import opened Staleness
  import opened Transport

  /** What the loop leaves behind: whether every request succeeded, the
      directory, and the requests issued, in order. */
  datatype LoopResult = LoopResult(allOk: bool, dir: Directory, requests: seq<Request>)

  function ConfigurationRequest(c: ConfigurationMetadata): Request {
    Configuration(c.configurationId, c.version)
  }

  /** One iteration before the response is looked at: the parent directories
      are created and the target is opened with `'wb'`, which truncates it. */
  function Open(d: Directory, c: ConfigurationMetadata): Directory {
    d.MakeParents(c.path).Write(c.path, [])
  }

  /** The loop over an already computed list of configurations: each one is
      requested in turn; a 200 body is written, and the first other status
      stops the loop with the opened file left empty. */
  function DownloadEach(todo: seq<ConfigurationMetadata>, d: Directory, server: Server): (r: LoopResult)
    ensures |r.requests| <= |todo|
    ensures forall i :: 0 <= i < |r.requests| ==> r.requests[i] == ConfigurationRequest(todo[i])
    ensures forall i :: 0 <= i < |r.requests| - 1 ==> IsOk(server(r.requests[i]))
    ensures r.allOk ==> |r.requests| == |todo| && forall i :: 0 <= i < |todo| ==> IsOk(server(r.requests[i]))
    ensures !r.allOk ==> |r.requests| > 0 && !IsOk(server(r.requests[|r.requests| - 1]))
  {
    if todo == [] then LoopResult(true, d, [])
    else
      var c := todo[0];
      var request := ConfigurationRequest(c);
      var truncated := Open(d, c);
      var response := server(request);
      if IsOk(response) then
        var rest := DownloadEach(todo[1..], truncated.Write(c.path, response.body), server);
        var requests := [request] + rest.requests;
        assert forall i :: 0 < i < |requests| ==> requests[i] == rest.requests[i - 1];
        LoopResult(rest.allOk, rest.dir, requests)
      else
        LoopResult(false, truncated, [request])
  }

  /** The loop leaves every path it does not download unchanged. */
  lemma {:induction false} DownloadEachFrame(todo: seq<ConfigurationMetadata>, d: Directory, server: Server)
    ensures forall p :: p !in PathsOf(todo) ==> DownloadEach(todo, d, server).dir.Content(p) == d.Content(p)
  {
    if todo != [] {
      var c := todo[0];
      var response := server(ConfigurationRequest(c));
      assert PathsOf(todo) == {c.path} + PathsOf(todo[1..]);
      if IsOk(response) {
        var next := Open(d, c).Write(c.path, response.body);
        DownloadEachFrame(todo[1..], next, server);
        forall p | p !in PathsOf(todo)
          ensures DownloadEach(todo, d, server).dir.Content(p) == d.Content(p)
        {
          assert next.Content(p) == d.Content(p);
        }
      }
    }
  }

  /** The only new files are the downloaded paths, and no directory disappears. */
  lemma {:induction false} DownloadEachFiles(todo: seq<ConfigurationMetadata>, d: Directory, server: Server)
    ensures DownloadEach(todo, d, server).dir.files.Keys <= d.files.Keys + PathsOf(todo)
    ensures d.dirs <= DownloadEach(todo, d, server).dir.dirs
  {
    if todo != [] {
      var c := todo[0];
      var response := server(ConfigurationRequest(c));
      assert PathsOf(todo) == {c.path} + PathsOf(todo[1..]);
      if IsOk(response) {
        var next := Open(d, c).Write(c.path, response.body);
        DownloadEachFiles(todo[1..], next, server);
      }
    }
  }

  /** On failure the failing entry's file exists and is empty: it was opened
      with `'wb'` before the request was made. */
  lemma {:induction false} DownloadEachTruncates(todo: seq<ConfigurationMetadata>, d: Directory, server: Server)
    ensures var r := DownloadEach(todo, d, server);
      !r.allOk ==> r.dir.Content(todo[|r.requests| - 1].path) == Some([])
  {
    if todo != [] {
      var c := todo[0];
      var response := server(ConfigurationRequest(c));
      if IsOk(response) {
        var next := Open(d, c).Write(c.path, response.body);
        DownloadEachTruncates(todo[1..], next, server);
        var rest := DownloadEach(todo[1..], next, server);
        var r := DownloadEach(todo, d, server);
        if !r.allOk {
          assert todo[|r.requests| - 1] == todo[1..][|rest.requests| - 1];
        }
      }
    }
  }

  /** With unique paths, every entry whose request succeeded holds its
      response body afterwards. */
  lemma {:induction false} DownloadEachWritesBodies(todo: seq<ConfigurationMetadata>, d: Directory, server: Server)
    requires UniquePaths(todo)
    ensures var r := DownloadEach(todo, d, server);
      forall i :: 0 <= i < |r.requests| && IsOk(server(r.requests[i])) ==>
        r.dir.Content(todo[i].path) == Some(server(ConfigurationRequest(todo[i])).body)
  {
    if todo != [] {
      var c := todo[0];
      var response := server(ConfigurationRequest(c));
      if IsOk(response) {
        var next := Open(d, c).Write(c.path, response.body);
        UniqueHead(todo);
        DownloadEachWritesBodies(todo[1..], next, server);
        DownloadEachFrame(todo[1..], next, server);
        var rest := DownloadEach(todo[1..], next, server);
        var r := DownloadEach(todo, d, server);
        assert r.requests == [ConfigurationRequest(c)] + rest.requests;
        assert c.path !in PathsOf(todo[1..]);
        assert r.dir.Content(c.path) == Some(response.body);
        forall i | 0 <= i < |r.requests| && IsOk(server(r.requests[i]))
          ensures r.dir.Content(todo[i].path) == Some(server(ConfigurationRequest(todo[i])).body)
        {
          if i > 0 {
            assert r.requests[i] == rest.requests[i - 1];
            assert todo[i] == todo[1..][i - 1];
          }
        }
      }
    }
  }

  /** The loop as written. `outdated_configurations` is a generator over the
      path-sorted configurations, so each one is tested for staleness against
      the directory as the earlier iterations left it. */
  function DownloadLazy(sorted: seq<ConfigurationMetadata>, d: Directory, digest: Hasher, server: Server): (r: LoopResult)
    ensures |r.requests| <= |sorted|
    ensures forall i :: 0 <= i < |r.requests| ==> r.requests[i].Configuration?
    ensures forall i :: 0 <= i < |r.requests| - 1 ==> IsOk(server(r.requests[i]))
    ensures r.allOk ==> forall i :: 0 <= i < |r.requests| ==> IsOk(server(r.requests[i]))
    ensures !r.allOk ==> |r.requests| > 0 && !IsOk(server(r.requests[|r.requests| - 1]))
  {
    if sorted == [] then LoopResult(true, d, [])
    else
      var c := sorted[0];
      if !IsStale(c, d, digest) then
        DownloadLazy(sorted[1..], d, digest, server)
      else
        var request := ConfigurationRequest(c);
        var truncated := Open(d, c);
        var response := server(request);
        if IsOk(response) then
          var rest := DownloadLazy(sorted[1..], truncated.Write(c.path, response.body), digest, server);
          LoopResult(rest.allOk, rest.dir, [request] + rest.requests)
        else
          LoopResult(false, truncated, [request])
  }

  /** The loop as written creates files only at the paths it iterates over. */
  lemma {:induction false} DownloadLazyFiles(sorted: seq<ConfigurationMetadata>, d: Directory, digest: Hasher, server: Server)
    ensures DownloadLazy(sorted, d, digest, server).dir.files.Keys <= d.files.Keys + PathsOf(sorted)
  {
    if sorted != [] {
      var c := sorted[0];
      assert PathsOf(sorted) == {c.path} + PathsOf(sorted[1..]);
      if !IsStale(c, d, digest) {
        DownloadLazyFiles(sorted[1..], d, digest, server);
      } else {
        var response := server(ConfigurationRequest(c));
        if IsOk(response) {
          DownloadLazyFiles(sorted[1..], Open(d, c).Write(c.path, response.body), digest, server);
        }
      }
    }
  }

  /** When no two configurations share a path, a download never changes
      whether a later one is stale, so the lazy loop is the loop over the
      list of outdated configurations computed up front. */
  lemma {:induction false} LazyIsEager(sorted: seq<ConfigurationMetadata>, d: Directory, digest: Hasher, server: Server)
    requires UniquePaths(sorted)
    ensures DownloadLazy(sorted, d, digest, server) == DownloadEach(KeepStale(sorted, d, digest), d, server)
  {
    if sorted != [] {
      var c := sorted[0];
      UniqueHead(sorted);
      if !IsStale(c, d, digest) {
        LazyIsEager(sorted[1..], d, digest, server);
      } else {
        var response := server(ConfigurationRequest(c));
        var next := Open(d, c).Write(c.path, response.body);
        var todo := KeepStale(sorted, d, digest);
        assert todo == [c] + KeepStale(sorted[1..], d, digest);
        assert todo[1..] == KeepStale(sorted[1..], d, digest);
        if IsOk(response) {
          LazyIsEager(sorted[1..], next, digest, server);
          KeepStaleAgree(sorted[1..], next, d, digest);
        }
      }
    }
  }

  /** When nothing is stale the loop requests nothing and changes nothing. */
  lemma {:induction false} DownloadLazyNothingStale(sorted: seq<ConfigurationMetadata>, d: Directory, digest: Hasher, server: Server)
    requires KeepStale(sorted, d, digest) == []
    ensures DownloadLazy(sorted, d, digest, server) == LoopResult(true, d, [])
  {
    if sorted != [] {
      assert sorted[0] in sorted;
      DownloadLazyNothingStale(sorted[1..], d, digest, server);
    }
  }
}

=== FILE: file_system.dfy ===
/** The abstract configuration directory: regular files with their contents
    and the subdirectories below the root, all named by relative path. */
module FileSystem {
  import opened Types

  /** `files` maps each regular file to its bytes; `dirs` holds every
      subdirectory (the `configurations` root itself is not listed). */
  datatype Directory = Directory(files: map<Path, Bytes>, dirs: set<Path>) {

    /** What `file_md5` and `read_bytes` see at `p`: `None` when no regular file is there. */
    function Content(p: Path): Option<Bytes> {
      if p in files then Some(files[p]) else None
    }

    /** Opening `p` with `'wb'` and writing `data`. */
    function Write(p: Path, data: Bytes): Directory {
      Directory(files[p := data], dirs)
    }

    /** `path.parent.mkdir(parents=True, exist_ok=True)`. */
    function MakeParents(p: Path): Directory {
      Directory(files, dirs + Ancestors(p))
    }
  }

  /** `a` names a directory strictly above `p`. */
  predicate IsAncestor(a: Path, p: Path) {
    |a| < |p| && p[..|a|] == a && p[|a|] == '/'
  }

  /** Every directory strictly above `p`, the root excepted. */
  function Ancestors(p: Path): set<Path> {
    set i | 0 <= i < |p| && p[i] == '/' :: p[..i]
  }

  lemma IsAncestorTransitive(a: Path, x: Path, p: Path)
    requires IsAncestor(a, x) && IsAncestor(x, p)
    ensures IsAncestor(a, p)
  {
  }

  /** The `/`-separated components of a path, empty ones included: `""`
      has the single component `""`, and `"a//b/"` has `"a"`, `""`, `"b"`, `""`. */
  function Components(p: Path): (r: seq<string>)
    ensures |r| >= 1
  {
    if p == [] then [[]]
    else
      var rest := Components(p[1..]);
      if p[0] == '/' then [[]] + rest else [[p[0]] + rest[0]] + rest[1..]
  }

  /** The components joined back with `/`. */
  function Join(cs: seq<string>): Path {
    if cs == [] then []
    else if |cs| == 1 then cs[0]
    else cs[0] + "/" + Join(cs[1..])
  }

  /** Splitting a path at `/` loses nothing. */
  lemma {:induction false} JoinComponents(p: Path)
    ensures Join(Components(p)) == p
  {
    if p != [] {
      var rest := Components(p[1..]);
      JoinComponents(p[1..]);
      if p[0] == '/' {
        assert Components(p) == [[]] + rest;
        assert Components(p)[1..] == rest;
      } else if |rest| == 1 {
        assert Components(p) == [[p[0]] + rest[0]];
      } else {
        var cs := Components(p);
        assert cs[1..] == rest[1..];
        assert Join(rest) == rest[0] + "/" + Join(rest[1..]);
        assert Join(cs) == [p[0]] + rest[0] + "/" + Join(rest[1..]);
        assert p == [p[0]] + p[1..];
      }
    }
  }

  /** A relative path spelled the way `str(rel_path)` prints a file found
      below the root: no empty, `.` or `..` component, so no leading,
      trailing or doubled `/`. `joinpath` and `read_bytes` resolve such a
      name to exactly the file of that name. */
  predicate Normalised(p: Path) {
    var cs := Components(p);
    forall i :: 0 <= i < |cs| ==> cs[i] != "" && cs[i] != "." && cs[i] != ".."
  }

  /** A file in a subdirectory, as the glob prints it, is normalised. */
  lemma NormalisedExample()
    ensures Normalised("a/b")
  {
    assert "a/b"[1..] == "/b" && "/b"[1..] == "b";
    SingleComponent("b");
    var slash := Components("/b");
    assert slash == ["", "b"];
    assert ['a'] + slash[0] == "a" && slash[1..] == ["b"];
    assert Components("a/b") == ["a", "b"];
  }

  /** The spellings the glob never prints are not normalised: a `./`
      prefix, a doubled `/`, a `..` component, an absolute name, the empty name. */
  lemma NotNormalisedExamples()
    ensures !Normalised("./b") && !Normalised("a//b")
    ensures !Normalised("../b") && !Normalised("/b") && !Normalised("")
  {
    assert "/b"[1..] == "b";
    assert Components("/b")[0] == "";
    assert "./b"[1..] == "/b" && "../b"[1..] == "./b";
    assert Components("./b")[0] == ".";
    assert Components("../b")[0] == "..";
    assert "a//b"[1..] == "//b" && "//b"[1..] == "/b";
    assert Components("//b")[1] == "";
    assert Components("a//b")[1] == "";
  }

  /** A name without `/` is its own single component. */
  lemma {:induction false} SingleComponent(p: Path)
    requires forall i :: 0 <= i < |p| ==> p[i] != '/'
    ensures Components(p) == [p]
  {
    if p != [] {
      SingleComponent(p[1..]);
      assert [p[0]] + p[1..] == p;
    }
  }

  /** The tree shape of a real directory: every directory above a file or a
      directory exists, and nothing is both a file and a directory. */
  ghost predicate WellFormed(d: Directory) {
    && (forall a, p :: p in d.files && IsAncestor(a, p) ==> a in d.dirs)
    && (forall a, x :: x in d.dirs && IsAncestor(a, x) ==> a in d.dirs)
    && (forall p :: p in d.files ==> p !in d.dirs)
  }

  predicate HasFileBelow(d: Directory, x: Path) {
    exists p :: p in d.files && IsAncestor(x, p)
  }

  /** `x` is a subdirectory with nothing in it. */
  predicate IsEmptyDir(d: Directory, x: Path) {
    && x in d.dirs
    && !HasFileBelow(d, x)
    && !(exists y :: y in d.dirs && IsAncestor(x, y))
  }

  /** `remove_subdirs_if_empty`: removes empty subdirectories bottom-up, so a
      directory survives exactly when some regular file lies below it; the root
      is never removed. */
  function RemoveEmptySubdirs(d: Directory): (r: Directory)
    ensures r.files == d.files
    ensures r.dirs <= d.dirs
    ensures forall x :: x in r.dirs ==> !IsEmptyDir(r, x)
    ensures forall x :: x in d.dirs && x !in r.dirs ==> !HasFileBelow(d, x)
    ensures WellFormed(d) ==> WellFormed(r)
  {
    var r := Directory(d.files, set x | x in d.dirs && HasFileBelow(d, x));
    assert WellFormed(d) ==> WellFormed(r) by {
      if WellFormed(d) {
        forall a, x | x in r.dirs && IsAncestor(a, x)
          ensures a in r.dirs
        {
          var p :| p in d.files && IsAncestor(x, p);
          IsAncestorTransitive(a, x, p);
        }
      }
    }
    r
  }
}

=== FILE: metadata.dfy ===
/** The device group metadata: the server-declared set of configurations the
    device must hold, and the path-sorted view of it that the client iterates. */
module Metadata {
  import opened Types
  import PathOrder
  import FileSystem

  /** One configuration file the server declares (`ConfigurationMetadata`). */
  datatype ConfigurationMetadata = ConfigurationMetadata(
    configurationId: string,
    path: Path,
    md5: Digest,
    version: int,
    alias: Option<string>)

  /** The snapshot of the device group (`DeviceGroupMetadata`). The Python object
      holds a set of configurations; `configurations` is that set in its
      iteration order, so it carries no duplicates (see `Distinct`). The
      timestamp `lastChecked` is in whole seconds since the epoch. */
  datatype DeviceGroupMetadata = DeviceGroupMetadata(
    deviceGroupId: string,
    deviceGroupVersion: int,
    configurations: seq<ConfigurationMetadata>,
    lastChecked: int)

  /** No element occurs twice: what a Python set guarantees. */
  predicate Distinct(s: seq<ConfigurationMetadata>) {
    forall x | x in multiset(s) :: multiset(s)[x] == 1
  }

  /** No configuration repeats and no two share a path: guaranteed by the
      server, never checked by the client. */
  predicate UniquePaths(cs: seq<ConfigurationMetadata>) {
    && Distinct(cs)
    && forall x, y :: x in cs && y in cs && x.path == y.path ==> x == y
  }

  /** Every declared path is normalised: the spelling under which the
      pruning walk finds the file the download writes. */
  predicate NormalisedPaths(cs: seq<ConfigurationMetadata>) {
    forall x :: x in cs ==> FileSystem.Normalised(x.path)
  }

  lemma DistinctShrinks(r: seq<ConfigurationMetadata>, s: seq<ConfigurationMetadata>)
    requires multiset(r) <= multiset(s) && Distinct(s)
    ensures Distinct(r)
  {
  }

  /** Any sub-multiset of a path-unique sequence (a filter, a permutation) is path-unique. */
  lemma UniquePathsShrink(r: seq<ConfigurationMetadata>, s: seq<ConfigurationMetadata>)
    requires multiset(r) <= multiset(s) && UniquePaths(s)
    ensures UniquePaths(r)
  {
    DistinctShrinks(r, s);
    forall x | x in r
      ensures x in s
    {
      assert x in multiset(r);
    }
  }

  /** With unique paths, the head's path occurs nowhere in the tail. */
  lemma UniqueHead(s: seq<ConfigurationMetadata>)
    requires UniquePaths(s) && s != []
    ensures UniquePaths(s[1..])
    ensures forall x :: x in s[1..] ==> x.path != s[0].path
  {
    assert s == [s[0]] + s[1..];
    UniquePathsShrink(s[1..], s);
    forall x | x in s[1..]
      ensures x.path != s[0].path
    {
      assert multiset(s)[s[0]] == 1 + multiset(s[1..])[s[0]];
      assert x in multiset(s[1..]);
      assert x != s[0];
    }
  }

  /** The paths a snapshot declares (`valid_paths`). */
  function DeclaredPaths(m: DeviceGroupMetadata): set<Path> {
    PathsOf(m.configurations)
  }

  /** The paths of a sequence of configurations. */
  function PathsOf(cs: seq<ConfigurationMetadata>): set<Path> {
    set c | c in cs :: c.path
  }

  predicate SortedByPath(cs: seq<ConfigurationMetadata>) {
    forall i, j :: 0 <= i < j < |cs| ==> PathOrder.Le(cs[i].path, cs[j].path)
  }

  lemma PrependSorted(c: ConfigurationMetadata, s: seq<ConfigurationMetadata>)
    requires SortedByPath(s)
    requires s == [] || PathOrder.Le(c.path, s[0].path)
    ensures SortedByPath([c] + s)
  {
    forall j | 0 <= j < |s|
      ensures PathOrder.Le(c.path, s[j].path)
    {
      if j > 0 {
        PathOrder.LeTransitive(c.path, s[0].path, s[j].path);
      }
    }
  }

  /** Inserts `c` in front of the first element whose path is not smaller, so
      that equal paths keep their original relative order. */
  function InsertByPath(c: ConfigurationMetadata, s: seq<ConfigurationMetadata>): (r: seq<ConfigurationMetadata>)
    requires SortedByPath(s)
    ensures SortedByPath(r)
    ensures multiset(r) == multiset(s) + multiset{c}
    ensures |r| == |s| + 1
  {
    if s == [] || PathOrder.Le(c.path, s[0].path) then
      PrependSorted(c, s);
      [c] + s
    else
      assert s == [s[0]] + s[1..];
      var rest := InsertByPath(c, s[1..]);
      PathOrder.LeTotal(c.path, s[0].path);
      assert rest[0] in multiset(rest);
      PrependSorted(s[0], rest);
      [s[0]] + rest
  }

  /** Python's stable `sorted(cs, key=lambda x: x.path)`, as an insertion sort. */
  function SortByPath(cs: seq<ConfigurationMetadata>): (r: seq<ConfigurationMetadata>)
    ensures SortedByPath(r)
    ensures multiset(r) == multiset(cs)
    ensures |r| == |cs|
  {
    if cs == [] then []
    else
      assert cs == [cs[0]] + cs[1..];
      InsertByPath(cs[0], SortByPath(cs[1..]))
  }
}

=== FILE: path_order.dfy ===
/** Python's ordering of `str` values: lexicographic by code point. It is the
    key order of `sorted(..., key=lambda x: x.path)`. */
module PathOrder {

  /** `a <= b` on Python strings. */
  predicate Le(a: string, b: string)
    decreases |a|
  {
    |a| == 0 || (|b| > 0 && (a[0] < b[0] || (a[0] == b[0] && Le(a[1..], b[1..]))))
  }

  lemma {:induction false} LeTotal(a: string, b: string)
    ensures Le(a, b) || Le(b, a)
    decreases |a|
  {
    if |a| > 0 && |b| > 0 && a[0] == b[0] {
      LeTotal(a[1..], b[1..]);
    }
  }

  lemma {:induction false} LeAntisymmetric(a: string, b: string)
    requires Le(a, b) && Le(b, a)
    ensures a == b
    decreases |a|
  {
    if |a| > 0 {
      LeAntisymmetric(a[1..], b[1..]);
      assert a == [a[0]] + a[1..];
      assert b == [b[0]] + b[1..];
    }
  }

  lemma {:induction false} LeTransitive(a: string, b: string, c: string)
    requires Le(a, b) && Le(b, c)
    ensures Le(a, c)
    decreases |a|
  {
    if |a| > 0 && a[0] == b[0] && b[0] == c[0] {
      LeTransitive(a[1..], b[1..], c[1..]);
    }
  }
}

=== FILE: prune.dfy ===
/** `_remove_old_configurations`: deletes every regular file the snapshot does
    not declare, then clears the subdirectories left empty. */
module Prune {
  import opened Types
  import opened FileSystem

  /** The effect of the deleting loop: undeclared regular files are unlinked,
      declared ones are left alone, directories are not touched. */
  function DeleteUndeclared(d: Directory, valid: set<Path>): (r: Directory)
    ensures r.files.Keys == d.files.Keys * valid
    ensures forall p :: p in r.files ==> r.files[p] == d.files[p]
    ensures r.dirs == d.dirs
  {
    Directory(map p | p in d.files && p in valid :: d.files[p], d.dirs)
  }

  /** The whole pruning pass once a snapshot is known. */
  function Prune(d: Directory, valid: set<Path>): (r: Directory)
    ensures r.files.Keys == d.files.Keys * valid
    ensures forall p :: p in valid ==> r.Content(p) == d.Content(p)
    ensures forall p :: p !in valid ==> r.Content(p).None?
    ensures r.dirs <= d.dirs
    ensures forall x :: x in r.dirs ==> !IsEmptyDir(r, x)
    ensures WellFormed(d) ==> WellFormed(r)
  {
    RemoveEmptySubdirs(DeleteUndeclared(d, valid))
  }

  /** Pruning twice with the same declared paths is pruning once. */
  lemma PruneIdempotent(d: Directory, valid: set<Path>)
    ensures Prune(Prune(d, valid), valid) == Prune(d, valid)
  {
  }

  /** The entries `glob('*')` yields: those directly in the root. */
  function TopLevel(walk: seq<Path>): (r: seq<Path>)
    ensures forall p :: p in r <==> p in walk && '/' !in p
  {
    if walk == [] then []
    else if '/' in walk[0] then TopLevel(walk[1..])
    else [walk[0]] + TopLevel(walk[1..])
  }

  /** The `chain` of the recursive glob and the top-level glob `*`: every
      entry of the tree, then the top-level entries a second time. `walk` is
      the order in which the recursive glob yields the tree. */
  function GlobVisits(walk: seq<Path>): seq<Path> {
    walk + TopLevel(walk)
  }

  /** The deleting loop as written: each visited path that is still a regular
      file (`file.is_file()`) and is not declared is unlinked. A top-level
      file seen a second time is no longer a file, so the second visit does
      nothing: deletion is an idempotent removal from the file map. */
  method DeleteUndeclaredByWalk(d: Directory, valid: set<Path>, walk: seq<Path>) returns (r: Directory)
    requires forall p :: p in walk <==> p in d.files || p in d.dirs
    ensures r == DeleteUndeclared(d, valid)
  {
    var visits := GlobVisits(walk);
    var files := d.files;
    var i := 0;
    while i < |visits|
      invariant 0 <= i <= |visits|
      invariant files.Keys <= d.files.Keys
      invariant forall p :: p in files ==> files[p] == d.files[p]
      invariant forall p :: p in d.files && p in valid ==> p in files
      invariant forall j :: 0 <= j < i ==> visits[j] !in files || visits[j] in valid
    {
      var p := visits[i];
      if p in files && p !in valid {
        files := files - {p};
      }
      i := i + 1;
    }
    forall p | p in d.files
      ensures p in visits
    {
      assert visits[..|walk|] == walk;
    }
    r := Directory(files, d.dirs);
    assert r.files == DeleteUndeclared(d, valid).files;
  }

  /** The directory of the test that removes old files and directories: the
      declared `foo.json` and `bar.json` survive, `a.json`, `dir1/a.json` and
      every directory go. */
  lemma PruneExample()
    ensures
      var d := Directory(
        map["a.json" := [1], "dir1/a.json" := [2], "foo.json" := [3], "bar.json" := [4]],
        {"dir1", "dir1/dir2", "dir1/dir2/dir3"});
      Prune(d, {"foo.json", "bar.json"}) == Directory(map["foo.json" := [3], "bar.json" := [4]], {})
  {
    var d := Directory(
      map["a.json" := [1], "dir1/a.json" := [2], "foo.json" := [3], "bar.json" := [4]],
      {"dir1", "dir1/dir2", "dir1/dir2/dir3"});
    var kept := DeleteUndeclared(d, {"foo.json", "bar.json"});
    assert kept.files == map["foo.json" := [3], "bar.json" := [4]];
    forall x | x in d.dirs
      ensures !HasFileBelow(kept, x)
    {
      assert !IsAncestor(x, "foo.json") && !IsAncestor(x, "bar.json");
    }
  }
}

=== FILE: staleness.dfy ===
/** Drift detection: which declared configurations do not match the bytes on
    disk (`outdated_configurations`, `is_download_needed`). */
module Staleness {
  import opened Types
  import opened Metadata
  import opened FileSystem

  /** `config.md5 != file_md5(path)`: the recorded digest differs from the
      digest of what is on disk, a missing file hashing to `digest(None)`. */
  predicate IsStale(c: ConfigurationMetadata, d: Directory, digest: Hasher) {
    c.md5 != digest(d.Content(c.path))
  }

  /** The filter of the generator: the stale elements of `s`, in their order. */
  function KeepStale(s: seq<ConfigurationMetadata>, d: Directory, digest: Hasher): (r: seq<ConfigurationMetadata>)
    ensures forall c :: c in r <==> c in s && IsStale(c, d, digest)
    ensures multiset(r) <= multiset(s)
    ensures SortedByPath(s) ==> SortedByPath(r)
  {
    if s == [] then []
    else
      assert s == [s[0]] + s[1..];
      var rest := KeepStale(s[1..], d, digest);
      if IsStale(s[0], d, digest) then
        assert SortedByPath(s) ==> SortedByPath([s[0]] + rest) by {
          if SortedByPath(s) {
            assert rest != [] ==> rest[0] in s[1..];
            PrependSorted(s[0], rest);
          }
        }
        [s[0]] + rest
      else
        rest
  }

  /** `outdated_configurations`: the declared configurations whose file is
      missing or differs from its recorded digest, in ascending path order. */
  function Outdated(m: DeviceGroupMetadata, d: Directory, digest: Hasher): (r: seq<ConfigurationMetadata>)
    ensures forall c :: c in r <==> c in m.configurations && IsStale(c, d, digest)
    ensures SortedByPath(r)
    ensures multiset(r) <= multiset(m.configurations)
    ensures Distinct(m.configurations) ==> Distinct(r)
  {
    var sorted := SortByPath(m.configurations);
    var r := KeepStale(sorted, d, digest);
    assert forall c :: c in sorted <==> c in m.configurations by {
      forall c
        ensures c in sorted <==> c in m.configurations
      {
        assert c in sorted <==> c in multiset(sorted);
        assert c in m.configurations <==> c in multiset(m.configurations);
      }
    }
    assert Distinct(m.configurations) ==> Distinct(r) by {
      if Distinct(m.configurations) {
        DistinctShrinks(r, m.configurations);
      }
    }
    r
  }

  /** The first-hit scan of `is_download_needed`. */
  function AnyStale(s: seq<ConfigurationMetadata>, d: Directory, digest: Hasher): (b: bool)
    ensures b <==> KeepStale(s, d, digest) != []
  {
    if s == [] then false
    else if IsStale(s[0], d, digest) then true
    else AnyStale(s[1..], d, digest)
  }

  /** `is_download_needed`: stops at the first outdated configuration. */
  function IsDownloadNeeded(m: DeviceGroupMetadata, d: Directory, digest: Hasher): (b: bool)
    ensures b <==> Outdated(m, d, digest) != []
    ensures b <==> exists c :: c in m.configurations && IsStale(c, d, digest)
  {
    var r := AnyStale(SortByPath(m.configurations), d, digest);
    assert r ==> Outdated(m, d, digest)[0] in Outdated(m, d, digest);
    r
  }

  /** A declared file that is absent is always outdated, whatever digest was
      recorded for it, as long as the hasher's missing-file value is never a
      recorded digest. */
  lemma MissingFileIsOutdated(m: DeviceGroupMetadata, d: Directory, digest: Hasher, c: ConfigurationMetadata)
    requires c in m.configurations && c.path !in d.files
    requires digest(None) != c.md5
    ensures c in Outdated(m, d, digest)
    ensures IsDownloadNeeded(m, d, digest)
  {
  }

  /** Staleness depends only on the contents at the declared paths. */
  lemma {:induction false} KeepStaleAgree(s: seq<ConfigurationMetadata>, d1: Directory, d2: Directory, digest: Hasher)
    requires forall c :: c in s ==> d1.Content(c.path) == d2.Content(c.path)
    ensures KeepStale(s, d1, digest) == KeepStale(s, d2, digest)
  {
    if s != [] {
      assert forall c :: c in s[1..] ==> c in s;
      KeepStaleAgree(s[1..], d1, d2, digest);
    }
  }

  /** Nothing is kept when nothing is stale. */
  lemma {:induction false} KeepStaleNone(s: seq<ConfigurationMetadata>, d: Directory, digest: Hasher)
    requires forall c :: c in s ==> !IsStale(c, d, digest)
    ensures KeepStale(s, d, digest) == []
  {
    if s != [] {
      assert forall c :: c in s[1..] ==> c in s;
      KeepStaleNone(s[1..], d, digest);
    }
  }
}

=== FILE: transport.dfy ===
/** The HTTP exchanges with the configgery device API, as values. Requests are
    never performed: a `Server` maps each request to the response it gets. */
module Transport {
  import opened Types

  datatype Request =
    /** `GET v1/current_configurations` */
    | CurrentConfigurations
    /** `GET v1/configuration` with fields `configuration_id` and `version` */
    | Configuration(configurationId: string, version: int)
    /** `POST v1/update_state` with a JSON body of these three fields */
    | StateUpdate(deviceGroupId: string, deviceGroupVersion: int, action: string)

  datatype Response = Response(status: int, body: Bytes)

  predicate IsOk(r: Response) {
    r.status == 200
  }

  type Server = Request -> Response
}

=== FILE: types.dfy ===
/** Basic vocabulary shared by the model of the configgery device client. */
module Types {

  /** A value that may be absent (Python's `Optional[T]`). */
  datatype Option<+T> = None | Some(value: T)

  /** The outcome of an operation that may raise an exception. */
  datatype Result<+T, +E> = Success(value: T) | Failure(error: E)

  /** An octet. */
  newtype Byte = b: int | 0 <= b < 0x100

  /** File contents and HTTP bodies. */
  type Bytes = seq<Byte>

  /** A path relative to the `configurations` directory, compared as a literal string. */
  type Path = string

  /** An MD5 hex digest, as recorded in the metadata and as computed by `file_md5`. */
  type Digest = string

  /** `file_md5`: the digest of a file's contents, `None` standing for a missing
      or unreadable file (the hasher's sentinel case). Left uninterpreted. */
  type Hasher = Option<Bytes> -> Digest
}

=== FILE: utf8.dfy ===
/** Well-formed UTF-8: the byte sequences that `bytes.decode("utf-8")`
    accepts without raising `UnicodeDecodeError`. This is the syntax of
    section 4 of RFC 3629, which rules out overlong forms, encoded
    surrogates and values above U+10FFFF. */
module Utf8 {
  import opened Types

  predicate IsTail(b: Byte) {
    0x80 <= b <= 0xBF
  }

  /** `n` when the `n - 1` bytes after the lead byte are present, the first
      of them in `lo..hi` and the others tail bytes; 0 otherwise. */
  function Continued(b: Bytes, n: nat, lo: Byte, hi: Byte): (r: nat)
    requires 2 <= n <= 4
    ensures r == 0 || (r == n && n <= |b|)
    ensures r == n <==> n <= |b| && lo <= b[1] <= hi && forall i :: 2 <= i < n ==> IsTail(b[i])
  {
    if n <= |b| && lo <= b[1] <= hi && (forall i :: 2 <= i < n ==> IsTail(b[i])) then n else 0
  }

  /** The length of the well-formed character at the head of `b`, or 0 when
      `b` does not start with one: the UTF8-1 to UTF8-4 rules of RFC 3629. */
  function HeadLength(b: Bytes): (n: nat)
    requires b != []
    ensures n <= 4 && n <= |b|
    ensures b[0] <= 0x7F <==> n == 1
  {
    var lead := b[0];
    if lead <= 0x7F then 1
    else if 0xC2 <= lead <= 0xDF then Continued(b, 2, 0x80, 0xBF)
    else if lead == 0xE0 then Continued(b, 3, 0xA0, 0xBF)
    else if 0xE1 <= lead <= 0xEC || 0xEE <= lead <= 0xEF then Continued(b, 3, 0x80, 0xBF)
    else if lead == 0xED then Continued(b, 3, 0x80, 0x9F)
    else if lead == 0xF0 then Continued(b, 4, 0x90, 0xBF)
    else if 0xF1 <= lead <= 0xF3 then Continued(b, 4, 0x80, 0xBF)
    else if lead == 0xF4 then Continued(b, 4, 0x80, 0x8F)
    else 0
  }

  /** `b` is a sequence of well-formed characters. */
  predicate Decodes(b: Bytes)
    decreases |b|
  {
    b == [] || (HeadLength(b) > 0 && Decodes(b[HeadLength(b)..]))
  }

  /** A Unicode scalar value: a code point that is not a surrogate. */
  predicate IsScalar(cp: int) {
    0 <= cp <= 0x10FFFF && !(0xD800 <= cp <= 0xDFFF)
  }

  /** `chr(cp).encode("utf-8")`: the shortest form, one to four bytes. */
  function EncodeScalar(cp: int): (r: Bytes)
    requires IsScalar(cp)
    ensures 1 <= |r| <= 4
  {
    if cp < 0x80 then [cp as Byte]
    else if cp < 0x800 then [(0xC0 + cp / 0x40) as Byte, (0x80 + cp % 0x40) as Byte]
    else if cp < 0x10000 then
      [(0xE0 + cp / 0x1000) as Byte, (0x80 + cp / 0x40 % 0x40) as Byte, (0x80 + cp % 0x40) as Byte]
    else
      [(0xF0 + cp / 0x40000) as Byte, (0x80 + cp / 0x1000 % 0x40) as Byte,
       (0x80 + cp / 0x40 % 0x40) as Byte, (0x80 + cp % 0x40) as Byte]
  }

  /** `s.encode("utf-8")` for a string given as its scalar values. */
  function Encode(s: seq<int>): Bytes
    requires forall i :: 0 <= i < |s| ==> IsScalar(s[i])
  {
    if s == [] then [] else EncodeScalar(s[0]) + Encode(s[1..])
  }

  /** The encoding of one scalar value is read back as one character of
      exactly that length, whatever follows it. */
  lemma EncodeScalarIsOneCharacter(cp: int, rest: Bytes)
    requires IsScalar(cp)
    ensures HeadLength(EncodeScalar(cp) + rest) == |EncodeScalar(cp)|
  {
    var e := EncodeScalar(cp);
    var b := e + rest;
    assert b[..|e|] == e;
    if cp < 0x80 {
    } else if cp < 0x800 {
      TwoByteForm(cp, b);
    } else if cp < 0x10000 {
      ThreeByteForm(cp, b);
    } else {
      FourByteForm(cp, b);
    }
  }

  lemma TwoByteForm(cp: int, b: Bytes)
    requires 0x80 <= cp < 0x800 && |b| >= 2 && b[..2] == EncodeScalar(cp)
    ensures HeadLength(b) == 2
  {
    assert b[0] == (0xC0 + cp / 0x40) as Byte && b[1] == (0x80 + cp % 0x40) as Byte;
  }

  lemma ThreeByteForm(cp: int, b: Bytes)
    requires 0x800 <= cp < 0x10000 && !(0xD800 <= cp <= 0xDFFF) && |b| >= 3 && b[..3] == EncodeScalar(cp)
    ensures HeadLength(b) == 3
  {
    assert b[0] == (0xE0 + cp / 0x1000) as Byte;
    assert b[1] == (0x80 + cp / 0x40 % 0x40) as Byte && b[2] == (0x80 + cp % 0x40) as Byte;
    assert Continued(b, 3, if b[0] == 0xE0 then 0xA0 else 0x80, if b[0] == 0xED then 0x9F else 0xBF) == 3;
  }

  lemma FourByteForm(cp: int, b: Bytes)
    requires 0x10000 <= cp <= 0x10FFFF && |b| >= 4 && b[..4] == EncodeScalar(cp)
    ensures HeadLength(b) == 4
  {
    assert b[0] == (0xF0 + cp / 0x40000) as Byte && b[1] == (0x80 + cp / 0x1000 % 0x40) as Byte;
    assert b[2] == (0x80 + cp / 0x40 % 0x40) as Byte && b[3] == (0x80 + cp % 0x40) as Byte;
    assert Continued(b, 4, if b[0] == 0xF0 then 0x90 else 0x80, if b[0] == 0xF4 then 0x8F else 0xBF) == 4;
  }

  /** Every encoded string decodes: the encoder produces only well-formed UTF-8. */
  lemma {:induction false} EncodeDecodes(s: seq<int>)
    requires forall i :: 0 <= i < |s| ==> IsScalar(s[i])
    ensures Decodes(Encode(s))
  {
    if s != [] {
      var e := EncodeScalar(s[0]);
      var rest := Encode(s[1..]);
      EncodeScalarIsOneCharacter(s[0], rest);
      assert (e + rest)[|e|..] == rest;
      EncodeDecodes(s[1..]);
    }
  }

  /** ASCII text decodes. */
  lemma {:induction false} AsciiDecodes(b: Bytes)
    requires forall i :: 0 <= i < |b| ==> b[i] <= 0x7F
    ensures Decodes(b)
  {
    if b != [] {
      AsciiDecodes(b[1..]);
    }
  }

  /** Bytes no encoder emits make `decode` raise: a lone tail byte, a byte
      that never occurs in UTF-8, an overlong form and an encoded surrogate. */
  lemma UndecodableExamples()
    ensures !Decodes([0x80]) && !Decodes([0xFF])
    ensures !Decodes([0xC0, 0x80]) && !Decodes([0xED, 0xA0, 0x80])
  {
  }
}
